=== FILE: README.md ===
# Table column resizing, modelled in Dafny

This project models the column-resize engine of a ProseMirror-based
markdown editor, together with the small pure helpers around it. It covers:

- the plugin state machine: the `(activeHandle, dragging)` state, `apply`,
  and the mouse handlers reduced to the actions they dispatch;
- the grid queries over an abstract `TableMap`: `edgeCell`,
  `handleDecorations` and `updateColumnWidth`, the commit of a dragged width
  to every physical cell of a column;
- `updateColumns`, the projection of the first row's widths onto the
  `<colgroup>` and the table's own CSS width;
- the cell-attribute codec `getCellAttrs` / `setCellAttrs`;
- `setAttr`, `pointsAtCell` / `cellAround`;
- `tableNodeTypes` / `createCell` / `createTable`;
- the attribute logic of the image node: the layout/title split, markdown
  output and input, and the alignment commands.

Modules, in dependency order:

| module | file | models |
|---|---|---|
| `Wrappers` | wrappers.dfy | `Option` |
| `OptionSeq` | option_seq.dfy | "visit `0..n-1`, push a value for some": the values collected, and where each came from |
| `Decimal` | decimal.dfy | decimal numerals, `split(",")` / `join(",")`, and the `^\d+(,\d+)*$` syntax |
| `Attrs` | attrs.dfy | `setAttr` |
| `CellAttrsCodec` | cell_attrs.dfy | `getCellAttrs` / `setCellAttrs` |
| `Positions` | positions.dfy | resolved positions, `pointsAtCell`, `cellAround` |
| `TableGrid` | table_grid.dfy | the abstract `TableMap`, `colCount` |
| `WidthCommit` | width_commit.dfy | `draggedWidth`, `currentColWidth`, `zeroes`, `updateColumnWidth` |
| `Decorations` | decorations.dfy | `handleDecorations` |
| `ResizePlugin` | resize_plugin.dfy | `ResizeState.apply`, `edgeCell`, the mouse handlers, `attributes`, `decorations` |
| `ColumnProjection` | column_projection.dfy | `updateColumns` |
| `TableNodes` | table_nodes.dfy | `tableNodeTypes`, `createCell`, `createTable` |
| `ImageNode` | image_node.dfy | `getLayoutAndTitle`, `toMarkdown`, `parseMarkdown`, `alignRight` / `alignLeft` / `alignCenter` |

## How the model is built

Everything is an immutable value and every operation is a pure function,
with two exceptions:

- `updateColumns` is a method over sequences. Its inner loop is the method `WriteCell`. Each iteration is `WriteCellColumn`, which writes through `WriteColumn`.
- `setAttr` is also given as its copy loop, `SetAttrByCopy`.

**TableMap.** The source of `TableMap` is not part of this model.

- `TableGrid.WellFormed` characterises it:
  - every slot holds the non-negative offset of a cell;
  - the slots holding a cell are exactly the `rowspan` × `colspan` rectangle anchored at its first slot.
- `colCount(pos)` is that first slot's index modulo `width`.
- Everything about a table is stated under `WellFormed`; this is an assumption of the model.

**Transactions.** A ProseMirror transaction is modelled as:

- its plugin meta;
- `docChanged`;
- an opaque position mapping;
- an opaque `resolve`.

`updateColumnWidth` produces the list of `(position, new attributes)` updates it would put into the transaction. `ApplyUpdates` applies such a list to the table.

**DOM.** Every DOM query becomes an input:

- the hovered cell's box;
- the position `posAtCoords` finds;
- a cell's `offsetWidth`.

**Numbers.** Positions, spans and the entries of a `colwidth` list are integers. The drag arithmetic is on reals: `currentColWidth` divides a rendered width among columns, so a drag can start from, and end at, a fractional width. The code stores such a width in `colwidth` unchanged; the model commits only whole dragged widths (see `ResizePlugin.Finish` under "Left out"). The CSS widths of `updateColumns` are reals too.

**Throwing.** In `ResizePlugin`, where the code would throw the model returns `Threw` (`ResizePlugin.Outcome`). This happens for a `null` handle, which passes the `> -1` and `== -1` guards and then reaches a table lookup. It also happens when mouse-up or a pointer move meets the handle -1 (`doc.resolve` rejects it) or a pointer move meets a missing drag. `TableNodes.CreateTable` gives `None` where `createTable` throws on a missing node type.

## Model

| member | source | states |
|---|---|---|
| Attrs.SetAttr | src/nodes/tableResizePlugin/module/setAttr.ts:1-6 | the result's keys are the input's keys plus `name`; `name` maps to `value`; every other key keeps its value |
| Attrs.SetAttrByCopy | src/plugins/columnResizing/utils.ts:12-17 | the copy loop, visiting the properties in any order, builds exactly the record `SetAttr` describes |
| Attrs.SetAttrLastWriteWins | src/nodes/tableResizePlugin/module/setAttr.ts:4 | setting a field twice equals setting it once to the second value |
| Attrs.SetAttrIdempotent | src/nodes/tableResizePlugin/module/setAttr.ts:1-6 | setting a field to the same value twice equals setting it once |
| Attrs.SetAttrCommutes | src/nodes/tableResizePlugin/module/setAttr.ts:1-6 | updates of two different fields commute |
| Attrs.SetAttrSameValue | src/nodes/tableResizePlugin/module/setAttr.ts:2-4 | writing back a field's own value gives an equal record |
| Decimal.ParsePrinted | src/plugins/columnResizing/schema.ts:18 | `Number` of a printed non-negative integer is that integer |
| Decimal.SplitJoin | src/plugins/columnResizing/schema.ts:40 | splitting the comma-join of comma-free fields gives the fields back |
| Decimal.WidthListFields | src/plugins/columnResizing/schema.ts:17-18 | a string matches `^\d+(,\d+)*$` exactly when every comma-separated field is a non-empty run of digits |
| CellAttrsCodec.SpanNumber | src/plugins/columnResizing/schema.ts:20 | an absent or empty span attribute is 1; a numeral is its value; any other string has no value in the model |
| CellAttrsCodec.FieldValues | src/plugins/columnResizing/schema.ts:18 | one non-negative number per field, each the field's value |
| CellAttrsCodec.ParseWidths | src/plugins/columnResizing/schema.ts:15-19 | widths are parsed exactly when `data-colwidth` is present and matches the syntax; they are the values of the comma-separated fields, one per field |
| CellAttrsCodec.GetCellAttrs | src/plugins/columnResizing/schema.ts:14-32 | `colspan` and `rowspan` are the numbers of their attributes, 1 when absent; `colwidth` survives exactly when well formed and of length `colspan`, and is then the values of its fields; otherwise it is null |
| CellAttrsCodec.Numerals | src/plugins/columnResizing/schema.ts:40 | one printed numeral per width |
| CellAttrsCodec.SetCellAttrs | src/plugins/columnResizing/schema.ts:34-47 | `colspan` / `rowspan` are written exactly when not 1 and parse back to their value; `data-colwidth` is written exactly when `colwidth` is set, as the comma-join of its numerals (`""` for an empty list) |
| CellAttrsCodec.NumeralsSplit | src/plugins/columnResizing/schema.ts:40 | splitting the printed width list gives the numerals back |
| CellAttrsCodec.CellAttrsRoundTrip | src/plugins/columnResizing/schema.ts:14-47 | for spans ≥ 0 and a null `colwidth` or `colspan` > 0 non-negative widths, parsing the printed attributes gives the same attributes |
| CellAttrsCodec.ColwidthUpdateIsSetAttr | src/nodes/tableResizePlugin/index.ts:225 | replacing `colwidth` in the cell attributes is `setAttr(attrs, "colwidth", …)` on their property record |
| Positions.PointsAtCell | src/nodes/tableResizePlugin/index.ts:81-83 | a position points at a cell when its parent's `tableRole` is `row` and a node follows it; `apply` uses only the truth of this |
| Positions.CellAround | src/plugins/columnResizing/utils.ts:5-10 | a found cell is the position before the child of some row ancestor at depths 1..`depth-1` |
| Positions.CellAroundFromSpec | src/plugins/columnResizing/utils.ts:6-8 | the downward scan from depth `d` finds a row exactly when one lies at depths 1..`d`, and returns the position before the child of the deepest one |
| Positions.CellAroundSpec | src/plugins/columnResizing/utils.ts:5-10 | `cellAround` is null exactly when no ancestor at depths 1..`depth-1` is a row; otherwise the position of the cell under the deepest row |
| TableGrid.Slot | src/nodes/tableResizePlugin/index.ts:216-219 | a slot of the grid names a cell of the table, at a non-negative offset |
| TableGrid.FirstSlot | src/nodes/tableResizePlugin/index.ts:213 | `colCount(pos)` and the cell's top row lie inside the grid, and their slot holds the cell |
| TableGrid.SlotInSpan | src/nodes/tableResizePlugin/index.ts:215-221 | the cell in a slot spans that slot, and its rectangle lies inside the grid |
| TableGrid.SpanInSlot | src/nodes/tableResizePlugin/index.ts:215-221 | a slot holds a cell exactly when it lies in the cell's rectangle |
| TableGrid.LastColumn | src/nodes/tableResizePlugin/index.ts:213 | `colCount(pos) + colspan - 1` is a column of the grid, not left of the cell's first column |
| TableGrid.GeometryPreserved | src/nodes/tableResizePlugin/index.ts:225 | replacing cell attributes without changing spans keeps the map, every slot, row and column |
| WidthCommit.DraggedWidth | src/nodes/tableResizePlugin/index.ts:203-206 | the dragged width is at least `cellMinWidth`, at least start + offset, and equal to one of them |
| WidthCommit.KnownWidths | src/nodes/tableResizePlugin/index.ts:194-199 | the loop over the first `colspan` entries totals every entry it reads (unset ones add nothing) and counts the set columns |
| WidthCommit.CurrentColWidth | src/nodes/tableResizePlugin/index.ts:187-201 | the last `colwidth` entry when it is non-zero; otherwise, with a `colwidth`, the rendered width less the set entries, divided among the unset columns (no value when none is unset); with no `colwidth`, the rendered width divided by `colspan` |
| WidthCommit.CurrentColWidthAfterPartialCommit | src/nodes/tableResizePlugin/index.ts:187-201 | a two-column cell with widths `[w, 0]`, as a commit of its first column leaves it, starts a drag from the rendered width less `w` |
| WidthCommit.KnownWidthsBelow | src/nodes/tableResizePlugin/index.ts:194-199 | a zero entry among the first `colspan` leaves at least one part to divide by |
| WidthCommit.CurrentColWidthDefined | src/nodes/tableResizePlugin/index.ts:187-201 | for a well-formed cell the division never has zero parts |
| WidthCommit.Zeroes | src/nodes/tableResizePlugin/index.ts:230-234 | `zeroes(n)` has length `n` and only zeros |
| WidthCommit.WithWidthAt | src/nodes/tableResizePlugin/index.ts:222-225 | the copied `colwidth` has `width` at `index`, every other entry as before (0 if there was none), and the spans are unchanged |
| WidthCommit.LocalIndexInRange | src/nodes/tableResizePlugin/index.ts:221 | the local index (`0` for `colspan` 1, else `col - colCount(pos)`) lies inside the cell's `colwidth` |
| WidthCommit.RowUpdateSpec | src/nodes/tableResizePlugin/index.ts:215-225 | row `r` yields an update exactly when it is the top row of its cell and that cell's entry differs from `width`; the update is for that cell |
| WidthCommit.UpdatesSound | src/nodes/tableResizePlugin/index.ts:215-225 | every update sets `width` at the cell's local index of a cell in the column, changing nothing else, and comes from the cell's top row |
| WidthCommit.UpdatesDistinct | src/nodes/tableResizePlugin/index.ts:217-218 | no cell is updated twice, even when it spans several rows |
| WidthCommit.UpdatedAt | src/nodes/tableResizePlugin/index.ts:218-222 | the cell of row `r` is updated exactly when its entry differs from `width` |
| WidthCommit.UpdatesComplete | src/nodes/tableResizePlugin/index.ts:215-226 | the updates are sound, and the cells updated are exactly the cells of the column whose entry differs from `width` |
| WidthCommit.ApplyUpdates | src/nodes/tableResizePlugin/index.ts:225 | `setNodeMarkup` keeps the table map and the set of cells |
| WidthCommit.ApplyUpdatesCell | src/nodes/tableResizePlugin/index.ts:225 | an updated cell gets its update's attributes; any other cell is unchanged; node sizes stay |
| WidthCommit.ApplyKeepsWellFormed | src/nodes/tableResizePlugin/index.ts:223-225 | the committed table is well formed and has the same geometry |
| WidthCommit.CommittedHasWidth | src/nodes/tableResizePlugin/index.ts:222-225 | after the commit, every row's cell in the column has `width` at its local index |
| WidthCommit.CommitIdempotent | src/nodes/tableResizePlugin/index.ts:222-227 | committing the same width again produces no update |
| WidthCommit.NoUpdatesWhenSet | src/nodes/tableResizePlugin/index.ts:222 | when every cell already has `width` at its local index, there are no updates |
| WidthCommit.NoUpdatesIff | src/nodes/tableResizePlugin/index.ts:215-227 | there are no updates exactly when every row's cell already has `width` at its local index |
| WidthCommit.UpdateColumnWidth | src/nodes/tableResizePlugin/index.ts:208-228 | a dispatched transaction has at least one step, and every step is at a cell of the table |
| WidthCommit.UpdateColumnWidthCommits | src/nodes/tableResizePlugin/index.ts:208-228 | once the dispatched commit is applied, the table is well formed and every cell covering the handle's last column has `width` at its entry for that column |
| WidthCommit.UpdateColumnWidthNoDispatch | src/nodes/tableResizePlugin/index.ts:208-228 | `updateColumnWidth` dispatches nothing exactly when every cell of the handle's last column already has `width` |
| WidthCommit.UpdateColumnWidthSteps | src/nodes/tableResizePlugin/index.ts:208-228 | a dispatched transaction holds sound updates at document positions, at most one per cell, for exactly the cells that lacked `width` |
| WidthCommit.UpdateColumnWidthIdempotent | src/nodes/tableResizePlugin/index.ts:208-228 | a second commit of the same width on the committed table dispatches nothing |
| Decorations.EdgeColumn | src/nodes/tableResizePlugin/index.ts:242 | the boundary column `colCount + colspan` is in 1..`width` and lies right of the cell's last column |
| Decorations.RowDecorationAsWritten | src/nodes/tableResizePlugin/index.ts:244-252 | the rule as written only ever decorates the cell left of the boundary |
| Decorations.DecoratedCellsAsWritten | src/nodes/tableResizePlugin/index.ts:243-257 | the code's loop decorates at most one cell per row, each a cell of the table |
| Decorations.HandleDecorationsAsWritten | src/nodes/tableResizePlugin/index.ts:236-260 | `handleDecorations` as written: one widget at the end of each cell the code's test selects |
| Decorations.RowDecorationSpec | src/nodes/tableResizePlugin/index.ts:243-252 | the corrected rule decorates row `r` exactly when the boundary is the cell's right edge and `r` is its top row |
| Decorations.DecoratedCellsSound | src/nodes/tableResizePlugin/index.ts:243-257 | each decorated cell ends at the boundary and is decorated from its top row |
| Decorations.DecoratedCellsDistinct | src/nodes/tableResizePlugin/index.ts:243-257 | no cell gets two widgets |
| Decorations.DecoratedCellsComplete | src/nodes/tableResizePlugin/index.ts:245-251 | a cell is decorated exactly when its right edge is the boundary |
| Decorations.HandleDecorations | src/nodes/tableResizePlugin/index.ts:236-260 | with the corrected test of Findings row 1: one widget per decorated cell, at the end of that cell |
| Decorations.HandleCellDecorated | src/nodes/tableResizePlugin/index.ts:236-260 | with the corrected test of Findings row 1, the active handle's own cell always gets a widget; the code as written can miss it (`AsWrittenSkipsHandleCell`) |
| Decorations.AsWrittenMissesCell | src/nodes/tableResizePlugin/index.ts:248-250 | in a 2×2 table whose left column is one tall cell, the rule as written misses the lower-right cell that the corrected rule decorates |
| Decorations.AsWrittenSkipsHandleCell | src/nodes/tableResizePlugin/index.ts:236-260 | with the handle on the lower-right cell of a 2×2 table whose left column is one tall cell, the code as written draws no widget on the handle's own cell; the corrected rule does |
| Decorations.AsWrittenDecoratesTwice | src/nodes/tableResizePlugin/index.ts:248-250 | in a 2×2 table whose right column is one tall cell, the rule as written gives that cell two widgets; the corrected rule gives it one |
| ResizePlugin.ApplyAsWritten | src/nodes/tableResizePlugin/index.ts:61-72 | with no meta and no document change, the state is unchanged; the code differs from `Apply` exactly when an edit leaves an active handle off any cell, and there it stores `null` and keeps any drag where `Apply` returns to the initial state |
| ResizePlugin.Apply | src/nodes/tableResizePlugin/index.ts:61-72 | `setHandle` gives `(handle, null)`; `setDragging` keeps the handle; no meta and no change keeps the state; on a change an active handle is remapped and kept with `dragging` when it still points at a cell; otherwise the state returns to the initial `(-1, no drag)` |
| ResizePlugin.ApplyKeepsHandleOnCell | src/nodes/tableResizePlugin/index.ts:66-69 | after a document change, an active handle points at a cell |
| ResizePlugin.CursorClass | src/nodes/tableResizePlugin/index.ts:27-30 | the `resize-cursor` class is set exactly when the handle is active |
| ResizePlugin.LeftNeighbourSpec | src/nodes/tableResizePlugin/index.ts:122-125 | there is no left neighbour exactly in column 0; otherwise it is the cell left of the cell's first slot, which ends at the cell's first column |
| ResizePlugin.EdgeCell | src/nodes/tableResizePlugin/index.ts:115-126 | -1 when no position or no cell is found; the cell itself on the right side; on the left side -1 or a handle in the same table |
| ResizePlugin.EdgeCellBoundary | src/nodes/tableResizePlugin/index.ts:115-126 | -1 when nothing is found; the cell itself on the right side; on the left side -1 exactly in column 0, and otherwise a cell whose right edge is the hovered cell's left edge |
| ResizePlugin.HoverHandle | src/nodes/tableResizePlugin/index.ts:89-95 | -1 outside a cell; the left edge wins within `handleWidth` of both; -1 in between |
| ResizePlugin.MouseMove | src/nodes/tableResizePlugin/index.ts:85-113 | nothing while dragging or for an unchanged handle; otherwise `setHandle(cell)`, except that without `lastColumnResizable` a cell ending at the last column is ignored |
| ResizePlugin.HoverArmsEdgeCell | src/nodes/tableResizePlugin/index.ts:89-110 | a pointer in a cell's right zone, away from its left zone, selects that cell through `edgeCell`, and `handleMouseMove` arms it when no drag runs and the handle differs |
| ResizePlugin.MouseLeave | src/nodes/tableResizePlugin/index.ts:144-147 | resets the handle to -1 exactly when it is active and no drag is running |
| ResizePlugin.MouseDown | src/nodes/tableResizePlugin/index.ts:149-159 | refuses exactly when the handle is -1 or a drag is running; throws for a `null` handle; otherwise starts a drag at the pointer with the cell's current width |
| ResizePlugin.MouseDownFromSetWidth | src/nodes/tableResizePlugin/index.ts:153-154 | a drag from a cell whose last `colwidth` entry is set starts from that whole width |
| ResizePlugin.DraggedWidthWhole | src/nodes/tableResizePlugin/index.ts:203-206 | a drag from a whole start width with a whole minimum gives a whole width |
| ResizePlugin.Finish | src/nodes/tableResizePlugin/index.ts:162-170 | acts exactly when a drag is running; throws unless the handle is a position (`null` fails the table lookup, -1 fails `doc.resolve`); otherwise returns the dragged width, the `updateColumnWidth` commit of it when it is whole, and `setDragging: null` |
| ResizePlugin.FinishCommitsDraggedWidth | src/nodes/tableResizePlugin/index.ts:162-170 | finishing a drag from a whole start width commits the dragged width: afterwards every cell covering the handle's last column has it |
| ResizePlugin.Move | src/nodes/tableResizePlugin/index.ts:173-179 | with the button released the drag finishes; with it held, throws once the drag is gone or the handle is not a position, and otherwise displays the dragged width, at least `cellMinWidth` |
| ResizePlugin.DragLifecycle | src/nodes/tableResizePlugin/index.ts:149-185 | mousedown on an idle active handle starts a drag that keeps the handle, blocks hover and leave updates and a second mousedown; finishing yields the dragged width, commits it when the cell's last width was set, and clears `dragging` with the handle still armed |
| ResizePlugin.CommitKeepsDrag | src/nodes/tableResizePlugin/index.ts:61-72 | the commit transaction of mouse-up, whose mapping keeps the handle on a cell, leaves the drag state unchanged; the following `setDragging: null` keeps the handle armed |
| ResizePlugin.DecorationsOf | src/nodes/tableResizePlugin/index.ts:44-47 | no widgets without an active handle; throws for a `null` handle; otherwise, with the corrected test of Findings row 1, the handle's own cell is decorated |
| ResizePlugin.StaleHandleStaysArmed | src/nodes/tableResizePlugin/index.ts:66-70 | with no drag running, after an edit that leaves the handle off any cell, the code's `null` handle still counts as active and keeps the cursor; decorations and mousedown then throw. In the initial state the cursor is off and both do nothing |
| ResizePlugin.StaleHandleDuringDrag | src/nodes/tableResizePlugin/index.ts:61-72 | the same edit during a drag: the code keeps `(null, drag)`, and mouse-up throws before the drag is ended; a handle reset only to -1 throws there too; the corrected state ends the drag, so mouse-up finishes without a commit, while a move with the button held still throws |
| ColumnProjection.CssOf | src/nodes/tableResizePlugin/module/updateColumns.ts:32 | the CSS width is empty exactly for a zero width, and `<w>px` otherwise |
| ColumnProjection.RowWidths | src/nodes/tableResizePlugin/module/updateColumns.ts:24-30 | the first row yields one width per spanned column |
| ColumnProjection.RowWidthsAt | src/nodes/tableResizePlugin/module/updateColumns.ts:26-30 | column `j` of cell `i` is grid column `SumColspan(row[..i]) + j`, and takes `overrideValue` there if overridden, else `colwidth[j]` |
| ColumnProjection.StyleSpec | src/nodes/tableResizePlugin/module/updateColumns.ts:50-56 | `width` is set exactly when every column has a width, `minWidth` exactly otherwise, and the one set is the total |
| ColumnProjection.TotalWidthUnset | src/nodes/tableResizePlugin/module/updateColumns.ts:33 | with no column width, the total is `cellMinWidth` per column |
| ColumnProjection.WriteColumn | src/nodes/tableResizePlugin/module/updateColumns.ts:30-40 | writing one more column keeps the `<col>` list, cursor, total and fixed flag in step with the widths written |
| ColumnProjection.WriteCell | src/nodes/tableResizePlugin/module/updateColumns.ts:29-41 | writing a cell's columns extends the written widths by that cell's column widths |
| ColumnProjection.UpdateColumns | src/nodes/tableResizePlugin/module/updateColumns.ts:11-57 | one `<col>` per spanned column of the first row, each the CSS of that column's width; surplus `<col>`s removed; the table style from the widths |
| TableNodes.RoleMap | src/utils/index.ts:10-16 | every key maps to a declared type whose `tableRole` is that key |
| TableNodes.RoleMapSpec | src/utils/index.ts:11-16 | a role is a key exactly when some type declares it, and it maps to the last type declaring it |
| TableNodes.TableNodeTypes | src/utils/index.ts:6-19 | a cached record is returned unchanged; otherwise the record built by the loop over the node types is returned and cached |
| TableNodes.TableNodeTypesFresh | src/utils/index.ts:6-19 | without a cached record, a role is found exactly when some type declares it, and it names the last such type |
| TableNodes.TableNodeTypesCached | src/plugins/columnResizing/schema.ts:1-12 | a second lookup returns the same record and leaves the schema as it was |
| TableNodes.CreateCell | src/utils/index.ts:21-30 | given content wins, then the ready-made node, then the type's default node |
| TableNodes.CreateTable | src/utils/index.ts:32-54 | a table exactly when the node types the arguments need exist; the schema has the role record cached |
| TableNodes.CreateTableShape | src/utils/index.ts:37-51 | `rowsCount` rows of `colsCount` cells; row 0 holds header cells exactly with `withHeaderRow` |
| TableNodes.HeaderCellPlaceholder | src/utils/index.ts:40-44 | without content, a header cell is one paragraph holding the placeholder text |
| TableNodes.CreateTableDefaults | src/utils/index.ts:32 | the defaults build three rows of three cells, a placeholder header row first |
| ImageNode.GetLayoutAndTitle | src/nodes/Image.tsx:87-98 | an empty title gives nothing; `right-50` / `left-50` give only the layout class; any other title only the title |
| ImageNode.IndexOf | src/nodes/Image.tsx:433 | the first occurrence of a character |
| ImageNode.RemoveFirst | src/nodes/Image.tsx:433 | `replace` removes only the first occurrence |
| ImageNode.AltText | src/nodes/Image.tsx:433 | a null alt is empty; an alt without a line break is kept |
| ImageNode.AltTextKeepsSecondBreak | src/nodes/Image.tsx:433 | of two line breaks in the alt, the second one survives |
| ImageNode.EmittedTitle | src/nodes/Image.tsx:436-440 | a truthy layout class is written; else a truthy title; else nothing |
| ImageNode.ToMarkdown | src/nodes/Image.tsx:430-443 | ` ![alt](src`, then the quoted layout class or else title, then `)` |
| ImageNode.ParseMarkdownAttrs | src/nodes/Image.tsx:448-453 | `src` from the token, alt from the first child's non-empty content, layout and title from the token's title |
| ImageNode.TitleRoundTrip | src/nodes/Image.tsx:430-453 | for canonical attributes, reading back the written title gives the same layout class and title |
| ImageNode.ParsedTitleRoundTrip | src/nodes/Image.tsx:448-453 | parsed attributes are canonical and write back the title they were read from |
| ImageNode.AlignRight | src/nodes/Image.tsx:475-484 | layout `right-50`, title cleared, `src` and `alt` kept |
| ImageNode.AlignLeft | src/nodes/Image.tsx:485-494 | layout `left-50`, title cleared, `src` and `alt` kept |
| ImageNode.AlignCenter | src/nodes/Image.tsx:495-500 | layout class cleared, title, `src` and `alt` kept |
| ImageNode.AlignedRoundTrip | src/nodes/Image.tsx:475-500 | after aligning, the layout survives writing and re-reading the markdown |
| ImageNode.LayoutHidesTitle | src/nodes/Image.tsx:436-440 | with a layout class set, the title does not affect the markdown |

## Left out

- The DOM is not modelled: `getBoundingClientRect`, `posAtCoords`, `domAtPos`, `domCellAround`, the widget elements and the style writes. Their results are inputs, or the returned sequences and records.
- The window listener lifecycle of `handleMouseDown` (`addEventListener` / `removeEventListener`, `preventDefault`) is event plumbing. Only the actions `finish` and `move` dispatch are modelled.
- `displayColumnWidth` (the live `updateColumns` call during a drag) is not modelled; `Move` returns the width it would display.
- The plugin's `init` is not modelled: the node-view registration and the option defaults (`handleWidth` 5, `cellMinWidth` 25). These are parameters.
- `TableMap` construction is not part of this model; `TableGrid.WellFormed` stands for its result.
- ProseMirror's `setNodeMarkup`, `mapping.map` and `doc.resolve` are abstract. A commit is a list of updates, the mapping and resolution are functions on the transaction, and `resolve` is assumed not to throw.
- The copies of `getCellAttrs` / `setCellAttrs` in src/nodes/tableResizePlugin/index.ts:262-290 are the modelled ones plus `extraAttrs` getter and setter callbacks, which are foreign code.
- CellAttrsCodec.SpanNumber: a span attribute that is not a plain decimal numeral yields `None`, so `GetCellAttrs` returns `None` for it. `Number` gives many such strings a positive integer, for example `" 2 "` (2), `"0x10"` (16), `"1e2"` (100), `"+3"` (3) and `"2.0"` (2), and the code then builds a cell with that span. Other strings give NaN, a fraction or a negative number, which the cell attributes cannot hold.
- Decimal.ParsePrinted: numerals and their values are unbounded integers. JavaScript prints a number of 1e21 or more in exponent form, and it loses integers above 2^53.
- WidthCommit.DraggedWidth: the arithmetic is exact on reals, not IEEE doubles.
- WidthCommit.CurrentColWidth: the DOM fallback divides exactly on reals, and gives `None` where JavaScript would divide by zero (Infinity or NaN).
- WidthCommit.UpdateColumnWidth: widths are integers, because `colwidth` entries are.
- ResizePlugin.Finish: a fractional dragged width is not committed (`commit` is `None`). A drag starts from a fractional width when `currentColWidth` divides a rendered width among two or more columns, for example 101 / 2. The code stores such a width unchanged. `setCellAttrs` then prints it as, say, `0,50.5`, which fails the `^\d+(,\d+)*$` test when parsed again, so the dragged width is lost on an HTML round trip.
- TableGrid.WellFormed: a table with no rows or no columns is outside the model. Every cell is assumed to have positive spans and, when it has a `colwidth`, one entry per spanned column; `getCellAttrs` guarantees this for parsed cells.
- ColumnProjection.UpdateColumns: only the resulting `<col>` widths are modelled. Writing a style only when it differs (updateColumns.ts:38) has no effect on that result.
- TableNodes.CreateTable: `createChecked` content validation and `createAndFill` returning null are not modelled. Fractional row and column counts are not modelled.
- The tableNodeTypes in src/plugins/columnResizing/schema.ts:1-12 stores the empty record in the cache before filling it; it returns the same record, so one model covers both copies.
- ImageNode.ToMarkdown: `state.esc` is an opaque function. The markdown parser that turns text into image tokens is not modelled, so the round trips are stated on the title the writer emits and the token the reader receives.
- The rest of the image node is not modelled: upload, paste and drop handling, download, resizing, the React component and the markdown input rule. The same holds for src/nodes/tableResizePlugin/module/tableView.ts (a DOM wrapper around `updateColumns`), src/nodes/tableResizePlugin/module/index.ts (re-exports), src/components/SearchBar.tsx and src/hooks/useUnmount.ts.

## Findings

| source | as written | input that shows it | evidently intended | confidence | as-written member | corrected member |
|---|---|---|---|---|---|---|
| src/nodes/tableResizePlugin/index.ts:248-250 | the "top of the cell" test compares `map[index-1]` with `map[index-1-width]`, the slots one column left of the boundary cell | 2×2 table with slots `[1,5,1,11]` (a tall cell on the left) and boundary column 2: the lower-right cell 11 gets no widget. Slots `[1,5,11,5]` (a tall cell on the right): cell 5 gets two widgets | compare `map[index]` with `map[index-width]`, as the comment above the test says: decorate each cell ending at the boundary once, from its top row | high (not executed) | Decorations.RowDecorationAsWritten, Decorations.HandleDecorationsAsWritten, Decorations.AsWrittenMissesCell, Decorations.AsWrittenDecoratesTwice, Decorations.AsWrittenSkipsHandleCell | Decorations.DecoratedCellsComplete, Decorations.DecoratedCellsDistinct, Decorations.HandleDecorations, Decorations.HandleCellDecorated, ResizePlugin.DecorationsOf |
| src/nodes/tableResizePlugin/index.ts:66-70 | a remapped handle that no longer points at a cell becomes `null` | handle 5, an edit that maps it to 7, and position 7 is not before a cell. With no drag running the state becomes `(null, no drag)`. `null > -1` is true, so the cursor class stays on and the decorations are drawn for `null`; `null == -1` is false, so mousedown is not refused. Both then look up the table around position `null`, which resolves at depth 0, and throw. During a drag the state becomes `(null, drag)`, and mouse-up throws in `updateColumnWidth` after removing its listeners and before ending the drag | return to the initial state: the handle -1, the value every other test treats as "no handle", and no drag, since a drag has no column left to resize | medium (not executed) | ResizePlugin.ApplyAsWritten, ResizePlugin.StaleHandleStaysArmed, ResizePlugin.StaleHandleDuringDrag | ResizePlugin.Apply, ResizePlugin.ApplyKeepsHandleOnCell |

=== FILE: attrs.dfy ===
/**
 * `setAttr`: the copy-on-write update of one property of a node's attribute
 * record. A JavaScript attribute object is modelled as a finite map from
 * property names to values; the input map is a value, so "the input is not
 * modified and a fresh record is returned" holds by construction.
 */
module Attrs {

  /** The record `setAttr(attrs, name, value)` returns. */
  function SetAttr<K, V>(attrs: map<K, V>, name: K, value: V): (r: map<K, V>)
    ensures r.Keys == attrs.Keys + {name}
    ensures name in r && r[name] == value
    ensures forall k | k in attrs && k != name :: k in r && r[k] == attrs[k]
  {
    map k | k in attrs.Keys + {name} :: if k == name then value else attrs[k]
  }

  /**
   * The algorithm as written: copy every property of `attrs` into an empty
   * record (in whatever order `for ... in` visits them), then assign `name`.
   */
  method SetAttrByCopy<K, V>(attrs: map<K, V>, name: K, value: V) returns (result: map<K, V>)
    ensures result == SetAttr(attrs, name, value)
  {
    result := map[];
    var todo := attrs.Keys;
    while todo != {}
      invariant todo <= attrs.Keys
      invariant result.Keys == attrs.Keys - todo
      invariant forall k | k in result :: k in attrs && result[k] == attrs[k]
      decreases todo
    {
      var prop :| prop in todo;
      result := result[prop := attrs[prop]];
      todo := todo - {prop};
    }
    result := result[name := value];
  }

  /** Setting the same property twice: the last write wins. */
  lemma SetAttrLastWriteWins<K, V>(attrs: map<K, V>, name: K, v1: V, v2: V)
    ensures SetAttr(SetAttr(attrs, name, v1), name, v2) == SetAttr(attrs, name, v2)
  {
  }

  /** Repeating a `setAttr` changes nothing. */
  lemma SetAttrIdempotent<K, V>(attrs: map<K, V>, name: K, value: V)
    ensures SetAttr(SetAttr(attrs, name, value), name, value) == SetAttr(attrs, name, value)
  {
    SetAttrLastWriteWins(attrs, name, value, value);
  }

  /** Writes to two different properties commute. */
  lemma SetAttrCommutes<K, V>(attrs: map<K, V>, n1: K, v1: V, n2: K, v2: V)
    requires n1 != n2
    ensures SetAttr(SetAttr(attrs, n1, v1), n2, v2) == SetAttr(SetAttr(attrs, n2, v2), n1, v1)
  {
  }

  /** Writing the value a property already has returns an equal record. */
  lemma SetAttrSameValue<K, V>(attrs: map<K, V>, name: K)
    requires name in attrs
    ensures SetAttr(attrs, name, attrs[name]) == attrs
  {
  }
}

=== FILE: cell_attrs.dfy ===
/**
 * The attributes of a table cell node (`colspan`, `rowspan`, `colwidth`) and
 * their DOM form (`colspan`, `rowspan`, `data-colwidth`): `getCellAttrs`
 * parses a `<td>`/`<th>` element, `setCellAttrs` prints a cell node.
 */
module CellAttrsCodec {
  import opened Wrappers
  import opened Decimal
  import opened Attrs

  /** A cell node's attributes; `colwidth` is `null` or one pixel width per spanned column. */
  datatype CellAttrs = CellAttrs(colspan: nat, rowspan: nat, colwidth: Option<seq<int>>)

  /** The attributes of a DOM element, as the strings `getAttribute` returns. */
  type DomAttrs = map<string, string>

  /** A cell attribute value as a property of the JavaScript attribute object. */
  datatype AttrValue = Num(n: int) | Widths(ws: seq<int>) | Null

  /** The cell attributes as the property record ProseMirror stores. */
  function AsRecord(a: CellAttrs): (r: map<string, AttrValue>)
    ensures r.Keys == {"colspan", "rowspan", "colwidth"}
  {
    map["colspan" := Num(a.colspan), "rowspan" := Num(a.rowspan),
        "colwidth" := if a.colwidth.Some? then Widths(a.colwidth.value) else Null]
  }

  /** Replacing `colwidth` in the record is `setAttr(attrs, "colwidth", ...)`. */
  lemma ColwidthUpdateIsSetAttr(a: CellAttrs, ws: seq<int>)
    ensures AsRecord(a.(colwidth := Some(ws))) == SetAttr(AsRecord(a), "colwidth", Widths(ws))
  {
  }

  function GetAttribute(dom: DomAttrs, name: string): Option<string> {
    if name in dom then Some(dom[name]) else None
  }

  /**
   * `Number(dom.getAttribute(name) || 1)`. An absent or empty attribute gives 1.
   * Plain decimal numerals give their value. Any other string gives `None`:
   * this model does not follow `Number`'s treatment of whitespace, signs,
   * hexadecimal, exponents and fractions.
   */
  function SpanNumber(attr: Option<string>): (r: Option<nat>)
    ensures (attr.None? || attr == Some("")) ==> r == Some(1)
    ensures attr.Some? && IsDigits(attr.value) ==> r == Some(ParseDigits(attr.value))
    ensures attr.Some? && attr.value != "" && !IsDigits(attr.value) ==> r.None?
  {
    match attr
    case None => Some(1)
    case Some(s) =>
      if s == "" then Some(1)
      else if IsDigits(s) then Some(ParseDigits(s))
      else None
  }

  /** `fields.map(s => Number(s))` over fields that are all numerals. */
  function FieldValues(fields: seq<string>): (ws: seq<int>)
    requires AllFieldsNumerals(fields)
    ensures |ws| == |fields|
    ensures forall k | 0 <= k < |ws| :: ws[k] == ParseDigits(fields[k]) && ws[k] >= 0
  {
    if |fields| == 0 then [] else [ParseDigits(fields[0]) as int] + FieldValues(fields[1..])
  }

  /** `widthAttr && /^\d+(,\d+)*$/.test(widthAttr) ? widthAttr.split(",").map(Number) : null` */
  function ParseWidths(attr: Option<string>): (r: Option<seq<int>>)
    ensures r.Some? <==> attr.Some? && WidthListSyntax(attr.value)
    ensures r.Some? ==> |r.value| == |Split(attr.value, ',')| && |r.value| > 0
    ensures r.Some? ==> forall k | 0 <= k < |r.value| :: r.value[k] >= 0
    ensures r.Some? ==> AllFieldsNumerals(Split(attr.value, ',')) && r.value == FieldValues(Split(attr.value, ','))
  {
    if attr.Some? && WidthListSyntax(attr.value) then
      WidthListFields(attr.value);
      Some(FieldValues(Split(attr.value, ',')))
    else None
  }

  /**
   * `getCellAttrs(dom)`. `None` only when a span attribute is a string the
   * model gives no number to (see `SpanNumber`).
   */
  function GetCellAttrs(dom: DomAttrs): (r: Option<CellAttrs>)
    ensures r.Some? <==>
      SpanNumber(GetAttribute(dom, "colspan")).Some? && SpanNumber(GetAttribute(dom, "rowspan")).Some?
    // the spans are the numbers their attributes give
    ensures r.Some? ==>
      && r.value.colspan == SpanNumber(GetAttribute(dom, "colspan")).value
      && r.value.rowspan == SpanNumber(GetAttribute(dom, "rowspan")).value
    // absent spans default to 1
    ensures "colspan" !in dom && "rowspan" !in dom ==> r.Some? && r.value.colspan == 1 && r.value.rowspan == 1
    // a width list survives exactly when it is well formed and has one entry per spanned column
    ensures r.Some? ==>
      (r.value.colwidth.Some? <==>
        && "data-colwidth" in dom
        && WidthListSyntax(dom["data-colwidth"])
        && |Split(dom["data-colwidth"], ',')| == r.value.colspan)
    ensures r.Some? && r.value.colwidth.Some? ==>
      |r.value.colwidth.value| == r.value.colspan && forall k | 0 <= k < r.value.colspan :: r.value.colwidth.value[k] >= 0
    // and the widths are the numbers of its comma-separated fields
    ensures r.Some? && r.value.colwidth.Some? ==>
      && AllFieldsNumerals(Split(dom["data-colwidth"], ','))
      && r.value.colwidth.value == FieldValues(Split(dom["data-colwidth"], ','))
  {
    var colspan := SpanNumber(GetAttribute(dom, "colspan"));
    var rowspan := SpanNumber(GetAttribute(dom, "rowspan"));
    if colspan.None? || rowspan.None? then None
    else
      var widths := ParseWidths(GetAttribute(dom, "data-colwidth"));
      Some(CellAttrs(colspan.value, rowspan.value,
                     if widths.Some? && |widths.value| == colspan.value then widths else None))
  }

  /** Each width printed as `String` would print it. */
  function Numerals(ws: seq<int>): (ns: seq<string>)
    ensures |ns| == |ws|
    ensures forall k | 0 <= k < |ws| :: ns[k] == IntToString(ws[k])
  {
    seq(|ws|, k requires 0 <= k < |ws| => IntToString(ws[k]))
  }

  /**
   * `setCellAttrs(node)`: spans equal to 1 are omitted, a `null` width list is
   * omitted, and a width list is written comma-joined. The DOM serializer
   * turns the numbers into strings; the model does that here.
   */
  function SetCellAttrs(a: CellAttrs): (r: DomAttrs)
    ensures r.Keys <= {"colspan", "rowspan", "data-colwidth"}
    ensures "colspan" in r <==> a.colspan != 1
    ensures "rowspan" in r <==> a.rowspan != 1
    ensures "data-colwidth" in r <==> a.colwidth.Some?
    ensures "colspan" in r ==> IsDigits(r["colspan"]) && ParseDigits(r["colspan"]) == a.colspan
    ensures "rowspan" in r ==> IsDigits(r["rowspan"]) && ParseDigits(r["rowspan"]) == a.rowspan
    ensures a.colwidth.Some? && |a.colwidth.value| > 0 ==> Split(r["data-colwidth"], ',') == Numerals(a.colwidth.value)
    ensures a.colwidth.Some? && |a.colwidth.value| == 0 ==> r["data-colwidth"] == ""
  {
    ParsePrinted(a.colspan);
    ParsePrinted(a.rowspan);
    var withColspan: DomAttrs := if a.colspan != 1 then map["colspan" := NatToString(a.colspan)] else map[];
    var withRowspan := if a.rowspan != 1 then withColspan["rowspan" := NatToString(a.rowspan)] else withColspan;
    if a.colwidth.Some? then
      NumeralsSplit(a.colwidth.value);
      withRowspan["data-colwidth" := Join(Numerals(a.colwidth.value), ',')]
    else withRowspan
  }

  lemma NumeralsSplit(ws: seq<int>)
    ensures |ws| > 0 ==> Split(Join(Numerals(ws), ','), ',') == Numerals(ws)
  {
    if |ws| > 0 {
      var ns := Numerals(ws);
      forall k | 0 <= k < |ns| ensures ',' !in ns[k] {
        var s := ns[k];
        if ws[k] >= 0 {
          assert IsDigits(s);
          assert forall i | 0 <= i < |s| :: s[i] != ',';
        } else {
          var digits := NatToString(-ws[k]);
          assert s == "-" + digits;
          assert forall i | 1 <= i < |s| :: s[i] == digits[i - 1];
        }
      }
      SplitJoin(ns, ',');
    }
  }

  /** The cell attributes a DOM round trip preserves. */
  predicate Encodable(a: CellAttrs) {
    a.colwidth.Some? ==>
      |a.colwidth.value| == a.colspan && a.colspan > 0 && forall k | 0 <= k < a.colspan :: a.colwidth.value[k] >= 0
  }

  /** Printing a cell's attributes and parsing them back gives the same attributes. */
  lemma {:induction false} CellAttrsRoundTrip(a: CellAttrs)
    requires Encodable(a)
    ensures GetCellAttrs(SetCellAttrs(a)) == Some(a)
  {
    var dom := SetCellAttrs(a);
    var r := GetCellAttrs(dom);
    assert r.Some?;
    assert r.value.colspan == a.colspan;
    assert r.value.rowspan == a.rowspan;
    if a.colwidth.Some? {
      var ws := a.colwidth.value;
      var text := dom["data-colwidth"];
      var ns := Numerals(ws);
      assert Split(text, ',') == ns;
      forall k | 0 <= k < |ns| ensures IsDigits(ns[k]) {
        assert ns[k] == NatToString(ws[k]);
      }
      assert AllFieldsNumerals(Split(text, ','));
      WidthListFields(text);
      var parsed := ParseWidths(Some(text));
      assert parsed.Some?;
      forall k | 0 <= k < |ws| ensures parsed.value[k] == ws[k] {
        ParsePrinted(ws[k]);
      }
      assert parsed.value == ws;
    }
  }
}

=== FILE: column_projection.dfy ===
/**
 * `updateColumns`: projecting the first row's cell widths onto the table's
 * `<colgroup>` and the table's own CSS width.
 *
 * Each grid column's width is the drag's `overrideValue` in the overridden
 * column and otherwise the cell's `colwidth` entry; a falsy width (`0`,
 * `null`, a missing entry) is 0 here and means "no width". The `<col>`
 * elements are a sequence of CSS widths: existing ones are overwritten in
 * order, missing ones appended, surplus ones removed.
 */
module ColumnProjection {
  import opened Wrappers
  import opened CellAttrsCodec

  /** A CSS length as the code writes it: `""` or `<n>px`. */
  datatype Css = Unset | Px(px: real)

  /** The table element's `style.width` and `style.minWidth`. */
  datatype TableStyle = TableStyle(width: Css, minWidth: Css)

  /** `overrideCol == col ? overrideValue : colwidth && colwidth[j]`, with falsy as 0. */
  function ColumnValue(a: CellAttrs, j: int, col: int, overrideCol: Option<int>, overrideValue: real): real {
    if overrideCol == Some(col) then overrideValue
    else
      match a.colwidth
      case Some(ws) => if 0 <= j < |ws| then ws[j] as real else 0.0
      case None => 0.0
  }

  /** `hasWidth ? hasWidth + "px" : ""` */
  function CssOf(w: real): (c: Css)
    ensures c.Unset? <==> w == 0.0
    ensures c.Px? ==> c.px == w
  {
    if w != 0.0 then Px(w) else Unset
  }

  /** `hasWidth || cellMinWidth` */
  function Contribution(w: real, cellMinWidth: int): real {
    if w != 0.0 then w else cellMinWidth as real
  }

  /** The number of grid columns the cells span. */
  function SumColspan(row: seq<CellAttrs>): nat {
    if |row| == 0 then 0 else SumColspan(row[..|row| - 1]) + row[|row| - 1].colspan
  }

  /** The widths of the first `n` grid columns of the cell `a`, which starts at grid column `first`. */
  function CellWidths(a: CellAttrs, first: int, n: nat, overrideCol: Option<int>, overrideValue: real): (ws: seq<real>)
    ensures |ws| == n
    ensures forall j | 0 <= j < n :: ws[j] == ColumnValue(a, j, first + j, overrideCol, overrideValue)
  {
    seq(n, j requires 0 <= j < n => ColumnValue(a, j, first + j, overrideCol, overrideValue))
  }

  /** One more column of a cell extends its widths by that column's value. */
  lemma CellWidthsStep(ws: seq<real>, a: CellAttrs, first: int, n: nat, overrideCol: Option<int>, overrideValue: real)
    ensures ws + CellWidths(a, first, n + 1, overrideCol, overrideValue)
      == (ws + CellWidths(a, first, n, overrideCol, overrideValue)) + [ColumnValue(a, n, first + n, overrideCol, overrideValue)]
  {
    var longer := CellWidths(a, first, n + 1, overrideCol, overrideValue);
    assert longer[..n] == CellWidths(a, first, n, overrideCol, overrideValue);
    assert longer == longer[..n] + [longer[n]];
  }

  /** The widths of the grid columns the cells `row` span, in order. */
  function RowWidths(row: seq<CellAttrs>, overrideCol: Option<int>, overrideValue: real): (ws: seq<real>)
    ensures |ws| == SumColspan(row)
  {
    if |row| == 0 then []
    else
      var before := SumColspan(row[..|row| - 1]);
      var a := row[|row| - 1];
      RowWidths(row[..|row| - 1], overrideCol, overrideValue) + CellWidths(a, before, a.colspan, overrideCol, overrideValue)
  }

  /** The sum of the columns' contributions: `totalWidth`. */
  function TotalWidth(ws: seq<real>, cellMinWidth: int): real {
    if |ws| == 0 then 0.0 else TotalWidth(ws[..|ws| - 1], cellMinWidth) + Contribution(ws[|ws| - 1], cellMinWidth)
  }

  /** `fixedWidth`: every column has a width. */
  predicate AllSet(ws: seq<real>) {
    forall k | 0 <= k < |ws| :: ws[k] != 0.0
  }

  /** The table's style for the column widths `ws`. */
  function StyleOf(ws: seq<real>, cellMinWidth: int): TableStyle {
    var total := TotalWidth(ws, cellMinWidth);
    if AllSet(ws) then TableStyle(Px(total), Unset) else TableStyle(Unset, Px(total))
  }

  /** Column `j` of cell `i` is grid column `SumColspan(row[..i]) + j` and has that cell's width. */
  lemma {:induction false} RowWidthsAt(row: seq<CellAttrs>, overrideCol: Option<int>, overrideValue: real, i: int, j: int)
    requires 0 <= i < |row| && 0 <= j < row[i].colspan
    ensures var col := SumColspan(row[..i]) + j;
      col < SumColspan(row)
      && RowWidths(row, overrideCol, overrideValue)[col] == ColumnValue(row[i], j, col, overrideCol, overrideValue)
    decreases |row|
  {
    var n := |row| - 1;
    assert row[..n][..i] == row[..i] || i == n;
    if i < n {
      assert row[..n][i] == row[i];
      RowWidthsAt(row[..n], overrideCol, overrideValue, i, j);
    } else {
      assert row[..i] == row[..n];
    }
  }

  /** The table is fixed-width exactly when every column has a width; the total goes to the other property otherwise. */
  lemma StyleSpec(ws: seq<real>, cellMinWidth: int)
    ensures var st := StyleOf(ws, cellMinWidth);
      && (st.width.Px? <==> AllSet(ws))
      && (st.minWidth.Px? <==> !AllSet(ws))
      && (st.width.Px? ==> st.width.px == TotalWidth(ws, cellMinWidth))
      && (st.minWidth.Px? ==> st.minWidth.px == TotalWidth(ws, cellMinWidth))
  {
  }

  /** With no column width set, the total is `cellMinWidth` per column. */
  lemma {:induction false} TotalWidthUnset(ws: seq<real>, cellMinWidth: int)
    requires forall k | 0 <= k < |ws| :: ws[k] == 0.0
    ensures TotalWidth(ws, cellMinWidth) == |ws| as real * cellMinWidth as real
    decreases |ws|
  {
    if |ws| > 0 {
      TotalWidthUnset(ws[..|ws| - 1], cellMinWidth);
    }
  }

  /**
   * The loop state of `updateColumns`: the `<col>` widths, the `nextDOM`
   * cursor (how many columns have been written), `totalWidth` and `fixedWidth`.
   */
  datatype Progress = Progress(out: seq<Css>, next: nat, total: real, fixed: bool)

  /** After writing the columns `ws` over the original `<col>`s `cols`. */
  predicate Written(p: Progress, cols: seq<Css>, ws: seq<real>, cellMinWidth: int) {
    && p.next == |ws|
    && |p.out| == (if |cols| > p.next then |cols| else p.next)
    && (forall k | 0 <= k < p.next :: p.out[k] == CssOf(ws[k]))
    && (forall k | p.next <= k < |p.out| :: p.out[k] == cols[k])
    && p.total == TotalWidth(ws, cellMinWidth)
    && p.fixed == AllSet(ws)
  }

  /** One iteration of the inner loop: the column of width `hasWidth` overwrites the next `<col>` or is appended. */
  method WriteColumn(p: Progress, ghost cols: seq<Css>, ghost ws: seq<real>, hasWidth: real, cellMinWidth: int)
    returns (p': Progress)
    requires Written(p, cols, ws, cellMinWidth)
    ensures Written(p', cols, ws + [hasWidth], cellMinWidth)
  {
    var cssWidth := CssOf(hasWidth);
    var out := if p.next >= |p.out| then p.out + [cssWidth] else p.out[p.next := cssWidth];
    var fixed := p.fixed;
    if hasWidth == 0.0 {
      fixed := false;
    }
    p' := Progress(out, p.next + 1, p.total + Contribution(hasWidth, cellMinWidth), fixed);
    assert (ws + [hasWidth])[..|ws|] == ws;
  }

  /** One iteration of the inner loop over the columns of cell `a`: its column `j`, at grid column `first + j`. */
  method WriteCellColumn(p: Progress, ghost cols: seq<Css>, ghost ws: seq<real>, a: CellAttrs, cellMinWidth: int,
                         first: int, j: nat, overrideCol: Option<int>, overrideValue: real)
    returns (p': Progress)
    requires Written(p, cols, ws + CellWidths(a, first, j, overrideCol, overrideValue), cellMinWidth)
    requires p.next == first + j
    ensures Written(p', cols, ws + CellWidths(a, first, j + 1, overrideCol, overrideValue), cellMinWidth)
    ensures p'.next == first + j + 1
  {
    var hasWidth := ColumnValue(a, j, p.next, overrideCol, overrideValue);
    CellWidthsStep(ws, a, first, j, overrideCol, overrideValue);
    p' := WriteColumn(p, cols, ws + CellWidths(a, first, j, overrideCol, overrideValue), hasWidth, cellMinWidth);
  }

  /** The inner loop over the columns of cell `a`, which starts at grid column `p.next`. */
  method WriteCell(p: Progress, ghost cols: seq<Css>, ghost ws: seq<real>, a: CellAttrs, cellMinWidth: int,
                   overrideCol: Option<int>, overrideValue: real)
    returns (p': Progress)
    requires Written(p, cols, ws, cellMinWidth)
    ensures Written(p', cols, ws + CellWidths(a, p.next, a.colspan, overrideCol, overrideValue), cellMinWidth)
  {
    var first := p.next;
    p' := p;
    assert ws + CellWidths(a, first, 0, overrideCol, overrideValue) == ws;
    for j := 0 to a.colspan
      invariant p'.next == first + j
      invariant Written(p', cols, ws + CellWidths(a, first, j, overrideCol, overrideValue), cellMinWidth)
    {
      p' := WriteCellColumn(p', cols, ws, a, cellMinWidth, first, j, overrideCol, overrideValue);
    }
  }

  /**
   * `updateColumns` over the first row's cells `row` and the `<col>`
   * elements `cols`: the new `<col>` widths and the table's style.
   */
  method UpdateColumns(row: seq<CellAttrs>, cols: seq<Css>, cellMinWidth: int, overrideCol: Option<int>, overrideValue: real)
    returns (cols': seq<Css>, style: TableStyle)
    ensures |cols'| == SumColspan(row)
    ensures forall k | 0 <= k < |cols'| :: cols'[k] == CssOf(RowWidths(row, overrideCol, overrideValue)[k])
    ensures style == StyleOf(RowWidths(row, overrideCol, overrideValue), cellMinWidth)
  {
    var p := Progress(cols, 0, 0.0, true);
    for i := 0 to |row|
      invariant Written(p, cols, RowWidths(row[..i], overrideCol, overrideValue), cellMinWidth)
    {
      assert row[..i + 1][..i] == row[..i];
      p := WriteCell(p, cols, RowWidths(row[..i], overrideCol, overrideValue), row[i], cellMinWidth, overrideCol, overrideValue);
    }
    assert row[..|row|] == row;
    var out := p.out;
    while p.next < |out|
      invariant p.next <= |out|
      invariant forall k | 0 <= k < p.next :: out[k] == p.out[k]
      decreases |out| - p.next
    {
      out := out[..p.next] + out[p.next + 1..];
    }
    cols' := out;
    if p.fixed {
      style := TableStyle(Px(p.total), Unset);
    } else {
      style := TableStyle(Unset, Px(p.total));
    }
  }
}

=== FILE: decimal.dfy ===
/**
 * Decimal numerals and comma-separated lists: the string side of the
 * `data-colwidth`, `colspan` and `rowspan` DOM attributes.
 *
 * `Split` follows JavaScript's `String.prototype.split` with a one-character
 * separator, `Join` follows `Array.prototype.join`, and `WidthListSyntax`
 * is the language of the regular expression `^\d+(,\d+)*$`.
 */
module Decimal {

  predicate IsDigit(c: char) {
    '0' <= c <= '9'
  }

  /** A non-empty string of decimal digits: the language of `^\d+$`. */
  predicate IsDigits(s: string) {
    |s| > 0 && forall i | 0 <= i < |s| :: IsDigit(s[i])
  }

  predicate AllDigits(s: string) {
    forall i | 0 <= i < |s| :: IsDigit(s[i])
  }

  function DigitValue(c: char): (d: nat)
    requires IsDigit(c)
    ensures d < 10
  {
    c as int - '0' as int
  }

  function DigitChar(d: nat): (c: char)
    requires d < 10
    ensures IsDigit(c) && DigitValue(c) == d
  {
    ('0' as int + d) as char
  }

  /** The value JavaScript's `Number` gives a string of decimal digits (leading zeros allowed). */
  function ParseDigits(s: string): nat
    requires AllDigits(s)
  {
    if |s| == 0 then 0 else ParseDigits(s[..|s| - 1]) * 10 + DigitValue(s[|s| - 1])
  }

  /** The canonical decimal form JavaScript's `String` gives a non-negative integer. */
  function NatToString(n: nat): (s: string)
    ensures IsDigits(s)
  {
    if n < 10 then [DigitChar(n)] else NatToString(n / 10) + [DigitChar(n % 10)]
  }

  /** JavaScript's `String` on an integer: a minus sign for negatives. */
  function IntToString(i: int): (s: string)
    ensures i >= 0 ==> IsDigits(s)
    ensures i < 0 ==> |s| > 1 && s[0] == '-'
  {
    if i < 0 then "-" + NatToString(-i) else NatToString(i)
  }

  /** Reading back a printed number gives the number. */
  lemma {:induction false} ParsePrinted(n: nat)
    ensures ParseDigits(NatToString(n)) == n
  {
    if n >= 10 {
      var s := NatToString(n);
      assert s[..|s| - 1] == NatToString(n / 10);
      ParsePrinted(n / 10);
    }
  }

  /** `Array.prototype.join`: the parts with `sep` between neighbours. */
  function Join(parts: seq<string>, sep: char): string
  {
    if |parts| == 0 then ""
    else if |parts| == 1 then parts[0]
    else parts[0] + [sep] + Join(parts[1..], sep)
  }

  /** `String.prototype.split` with a one-character separator; `""` splits into `[""]`. */
  function Split(s: string, sep: char): (r: seq<string>)
    ensures |r| > 0
  {
    if |s| == 0 then [""]
    else
      var rest := Split(s[1..], sep);
      if s[0] == sep then [""] + rest else [[s[0]] + rest[0]] + rest[1..]
  }

  /**
   * The language of `^\d+(,\d+)*$`, stated character by character: digits and
   * commas only, a digit at both ends, and no two commas side by side.
   */
  predicate WidthListSyntax(s: string) {
    && |s| > 0
    && IsDigit(s[0])
    && IsDigit(s[|s| - 1])
    && (forall i | 0 <= i < |s| :: IsDigit(s[i]) || s[i] == ',')
    && (forall i | 0 <= i < |s| - 1 :: s[i] == ',' ==> s[i + 1] != ',')
  }

  /** Splitting a string that does not contain the separator yields the string itself. */
  lemma {:induction false} SplitNoSep(s: string, sep: char)
    requires sep !in s
    ensures Split(s, sep) == [s]
  {
    if |s| > 0 {
      assert sep !in s[1..];
      SplitNoSep(s[1..], sep);
      assert [s[0]] + s[1..] == s;
    }
  }

  /** Splitting `p + sep + t` peels off `p` when `p` has no separator. */
  lemma {:induction false} SplitCons(p: string, t: string, sep: char)
    requires sep !in p
    ensures Split(p + [sep] + t, sep) == [p] + Split(t, sep)
  {
    if |p| == 0 {
      assert p + [sep] + t == [sep] + t;
      assert ([sep] + t)[1..] == t;
    } else {
      var s := p + [sep] + t;
      assert s[1..] == p[1..] + [sep] + t;
      assert sep !in p[1..];
      SplitCons(p[1..], t, sep);
      assert [p[0]] + p[1..] == p;
    }
  }

  /** Splitting a join of separator-free parts gives the parts back. */
  lemma {:induction false} SplitJoin(parts: seq<string>, sep: char)
    requires |parts| > 0
    requires forall k | 0 <= k < |parts| :: sep !in parts[k]
    ensures Split(Join(parts, sep), sep) == parts
  {
    if |parts| == 1 {
      SplitNoSep(parts[0], sep);
    } else {
      SplitJoin(parts[1..], sep);
      SplitCons(parts[0], Join(parts[1..], sep), sep);
      assert [parts[0]] + parts[1..] == parts;
    }
  }

  /** Every field of `s` split at commas is a numeral exactly when `s` matches `^\d+(,\d+)*$`. */
  lemma {:induction false} WidthListFields(s: string)
    ensures WidthListSyntax(s) <==> AllFieldsNumerals(Split(s, ','))
  {
    if |s| == 0 || s[0] == ',' {
      assert !IsDigits(Split(s, ',')[0]);
    } else if !IsDigit(s[0]) {
      assert Split(s, ',')[0][0] == s[0];
    } else if |s| == 1 {
      assert s[1..] == "";
      var rest := Split(s[1..], ',');
      assert rest == [""];
      assert [s[0]] + rest[0] == [s[0]];
      assert Split(s, ',') == [[s[0]] + rest[0]] + rest[1..];
      assert Split(s, ',') == [[s[0]]];
      assert [s[0]] == s;
    } else {
      var fs := Split(s, ',');
      var rest := Split(s[1..], ',');
      assert fs == [[s[0]] + rest[0]] + rest[1..];
      if IsDigit(s[1]) {
        WidthListFields(s[1..]);
        SyntaxDropDigit(s);
        SplitHead(s[1..], ',');
        assert IsDigits(fs[0]) <==> IsDigits(rest[0]) by {
          assert fs[0] == [s[0]] + rest[0];
          assert forall i | 1 <= i < |fs[0]| :: fs[0][i] == rest[0][i - 1];
          assert forall i | 0 <= i < |rest[0]| :: rest[0][i] == fs[0][i + 1];
        }
        assert forall k | 1 <= k < |fs| :: fs[k] == rest[k];
      } else if s[1] == ',' {
        WidthListFields(s[2..]);
        assert s[1..][1..] == s[2..];
        assert rest == [""] + Split(s[2..], ',');
        assert rest[0] == "" && rest[1..] == Split(s[2..], ',');
        assert [s[0]] + "" == [s[0]];
        assert fs == [[s[0]]] + Split(s[2..], ',');
        SyntaxDropDigitComma(s);
        var tail := Split(s[2..], ',');
        assert IsDigits([s[0]]);
        assert forall k | 1 <= k < |fs| :: fs[k] == tail[k - 1];
        assert AllFieldsNumerals(fs) <==> AllFieldsNumerals(tail) by {
          if AllFieldsNumerals(tail) {
            forall k | 0 <= k < |fs| ensures IsDigits(fs[k]) {
              if k > 0 { assert fs[k] == tail[k - 1]; }
            }
          }
          if AllFieldsNumerals(fs) {
            forall k | 0 <= k < |tail| ensures IsDigits(tail[k]) {
              assert tail[k] == fs[k + 1];
            }
          }
        }
      } else {
        SplitHead(s[1..], ',');
        assert fs[0][1] == s[1];
      }
    }
  }

  lemma SplitHead(t: string, sep: char)
    requires |t| > 0 && t[0] != sep
    ensures |Split(t, sep)[0]| > 0 && Split(t, sep)[0][0] == t[0]
  {
  }

  lemma SyntaxDropDigit(s: string)
    requires |s| >= 2 && IsDigit(s[0]) && IsDigit(s[1])
    ensures WidthListSyntax(s) <==> WidthListSyntax(s[1..])
  {
    assert forall i | 0 <= i < |s| - 1 :: s[1..][i] == s[i + 1];
  }

  lemma SyntaxDropDigitComma(s: string)
    requires |s| >= 2 && IsDigit(s[0]) && s[1] == ','
    ensures WidthListSyntax(s) <==> WidthListSyntax(s[2..])
  {
    assert forall i | 0 <= i < |s| - 2 :: s[2..][i] == s[i + 2];
    if WidthListSyntax(s[2..]) {
      assert forall i | 0 <= i < |s| :: IsDigit(s[i]) || s[i] == ',' by {
        forall i | 0 <= i < |s| ensures IsDigit(s[i]) || s[i] == ',' {
          if i >= 2 { assert s[i] == s[2..][i - 2]; }
        }
      }
      assert forall i | 0 <= i < |s| - 1 :: s[i] == ',' ==> s[i + 1] != ',' by {
        forall i | 0 <= i < |s| - 1 ensures s[i] == ',' ==> s[i + 1] != ',' {
          if i >= 2 { assert s[i] == s[2..][i - 2] && s[i + 1] == s[2..][i - 1]; }
          if i == 1 { assert s[2] == s[2..][0]; }
        }
      }
    }
  }

  predicate AllFieldsNumerals(fields: seq<string>) {
    forall k | 0 <= k < |fields| :: IsDigits(fields[k])
  }
}

=== FILE: decorations.dfy ===
/**
 * `handleDecorations`: the resize-handle widgets drawn along the right edge
 * of the column boundary that the active handle's cell ends at.
 *
 * For every row the loop looks at the slot just left of the boundary and
 * decorates the cell there when the boundary really is that cell's right
 * edge and the row is the first one of the cell. `DecoratedCellsAsWritten`
 * follows the code, which tests the second condition on the slot one
 * further to the left; `DecoratedCells` is the rule the comment in the code
 * describes, and the one the rest of the model uses.
 */
module Decorations {
  import opened Wrappers
  import opened CellAttrsCodec
  import opened TableGrid
  import opened OptionSeq

  /** `map.map[i]` in JavaScript: `undefined` outside the array. */
  function At(s: seq<int>, i: int): (v: Option<int>)
    ensures v.Some? <==> 0 <= i < |s|
    ensures v.Some? ==> v.value == s[i]
  {
    if 0 <= i < |s| then Some(s[i]) else None
  }

  /** `colCount($cell.pos - start) + colspan`: the boundary column right of the cell `p`. */
  function EdgeColumn(t: Table, p: int): (c: int)
    requires WellFormed(t) && p in t.tmap.slots
    ensures 1 <= c <= t.tmap.width
    ensures c == LastColumn(t, p) + 1
  {
    LastColumn(t, p) + 1
  }

  /** `start + cellPos + nodeSize - 1`: the widget sits at the end of the cell's content. */
  function WidgetPos(t: Table, start: int, p: int): int
    requires p in t.cells
  {
    start + p + t.cells[p].nodeSize - 1
  }

  /** The loop body as written: the cell decorated in row `r` for the boundary `c`, if any. */
  function RowDecorationAsWritten(t: Table, c: int, r: int): (d: Option<int>)
    requires WellFormed(t) && 1 <= c <= t.tmap.width && 0 <= r < t.tmap.height
    ensures d.Some? ==> d.value == Slot(t, r, c - 1)
  {
    var w := t.tmap.width;
    var s := t.tmap.slots;
    var index := c + r * w - 1;
    SlotIndexInRange(w, t.tmap.height, r, c - 1);
    if (c == w || At(s, index) != At(s, index + 1)) && (r == 0 || At(s, index - 1) != At(s, index - 1 - w))
    then Some(s[index])
    else None
  }

  /** The cells decorated by the code as written, in row order. */
  function DecoratedCellsAsWritten(t: Table, c: int): (ds: seq<int>)
    requires WellFormed(t) && 1 <= c <= t.tmap.width
    ensures |ds| <= t.tmap.height
    ensures forall k | 0 <= k < |ds| :: ds[k] in t.tmap.slots && ds[k] in t.cells
  {
    var os := seq(t.tmap.height, r requires 0 <= r < t.tmap.height => RowDecorationAsWritten(t, c, r));
    assert forall k | 0 <= k < |Somes(os)| :: Somes(os)[k] in t.tmap.slots && Somes(os)[k] in t.cells by {
      forall k | 0 <= k < |Somes(os)| ensures Somes(os)[k] in t.tmap.slots && Somes(os)[k] in t.cells {
        var r := SourceIndex(os, k);
        SlotInSpan(t, r, c - 1);
      }
    }
    Somes(os)
  }

  /** `handleDecorations(state, cell)` as written: the widget positions of the cells the code's test selects. */
  function HandleDecorationsAsWritten(t: Table, start: int, cell: int): (ws: seq<int>)
    requires WellFormed(t) && cell - start in t.tmap.slots
    ensures var ds := DecoratedCellsAsWritten(t, EdgeColumn(t, cell - start));
      |ws| == |ds| && forall k | 0 <= k < |ds| :: ws[k] == WidgetPos(t, start, ds[k])
  {
    var ds := DecoratedCellsAsWritten(t, EdgeColumn(t, cell - start));
    seq(|ds|, k requires 0 <= k < |ds| => WidgetPos(t, start, ds[k]))
  }

  /**
   * The loop body as the comment in the code describes it: the cell left of
   * the boundary has a different cell (or the table's end) to its right,
   * and the top of the table or a different cell above it.
   */
  function RowDecoration(t: Table, c: int, r: int): Option<int>
    requires WellFormed(t) && 1 <= c <= t.tmap.width && 0 <= r < t.tmap.height
  {
    var p := Slot(t, r, c - 1);
    if (c == t.tmap.width || p != Slot(t, r, c)) && (r == 0 || p != Slot(t, r - 1, c - 1))
    then Some(p)
    else None
  }

  function RowDecorations(t: Table, c: int): (os: seq<Option<int>>)
    requires WellFormed(t) && 1 <= c <= t.tmap.width
    ensures |os| == t.tmap.height
    ensures forall r | 0 <= r < t.tmap.height :: os[r] == RowDecoration(t, c, r)
  {
    seq(t.tmap.height, r requires 0 <= r < t.tmap.height => RowDecoration(t, c, r))
  }

  /** The cells that get a handle widget for the boundary `c`, in row order. */
  function DecoratedCells(t: Table, c: int): seq<int>
    requires WellFormed(t) && 1 <= c <= t.tmap.width
  {
    Somes(RowDecorations(t, c))
  }

  /** `handleDecorations(state, cell)`: the widget positions for the handle at document position `cell`. */
  function HandleDecorations(t: Table, start: int, cell: int): (ws: seq<int>)
    requires WellFormed(t) && cell - start in t.tmap.slots
    ensures var ds := DecoratedCells(t, EdgeColumn(t, cell - start));
      |ws| == |ds| && forall k | 0 <= k < |ds| :: ds[k] in t.cells && ws[k] == WidgetPos(t, start, ds[k])
  {
    var ds := DecoratedCells(t, EdgeColumn(t, cell - start));
    assert forall k | 0 <= k < |ds| :: ds[k] in t.cells by {
      forall k | 0 <= k < |ds| ensures ds[k] in t.cells {
        var r := SourceIndex(RowDecorations(t, EdgeColumn(t, cell - start)), k);
      }
    }
    seq(|ds|, k requires 0 <= k < |ds| => WidgetPos(t, start, ds[k]))
  }

  /** The cell whose right edge is the boundary `c`, in its first row: what a row decorates. */
  predicate EdgeCellTop(t: Table, c: int, r: int, p: int)
    requires WellFormed(t) && p in t.tmap.slots
  {
    && r == TopRow(t, p)
    && ColCount(t, p) + t.cells[p].attrs.colspan == c
  }

  /** Row `r` is decorated exactly when its cell left of the boundary ends there and starts in row `r`. */
  lemma RowDecorationSpec(t: Table, c: int, r: int)
    requires WellFormed(t) && 1 <= c <= t.tmap.width && 0 <= r < t.tmap.height
    ensures var p := Slot(t, r, c - 1);
      && (RowDecoration(t, c, r).Some? <==> EdgeCellTop(t, c, r, p))
      && (RowDecoration(t, c, r).Some? ==> RowDecoration(t, c, r).value == p)
  {
    var p := Slot(t, r, c - 1);
    SlotInSpan(t, r, c - 1);
    FirstSlot(t, p);
    if c < t.tmap.width {
      SpanInSlot(t, p, r, c);
    }
    if r > 0 {
      SpanInSlot(t, p, r - 1, c - 1);
    }
  }

  /** Every decorated cell ends at the boundary; the cells are listed by increasing top row. */
  lemma DecoratedCellsSound(t: Table, c: int)
    requires WellFormed(t) && 1 <= c <= t.tmap.width
    ensures var ds := DecoratedCells(t, c);
      forall k | 0 <= k < |ds| ::
        && ds[k] in t.tmap.slots
        && EdgeCellTop(t, c, SourceIndex(RowDecorations(t, c), k), ds[k])
  {
    var os := RowDecorations(t, c);
    var ds := DecoratedCells(t, c);
    forall k | 0 <= k < |ds|
      ensures ds[k] in t.tmap.slots && EdgeCellTop(t, c, SourceIndex(os, k), ds[k])
    {
      RowDecorationSpec(t, c, SourceIndex(os, k));
    }
  }

  /** No cell is decorated twice. */
  lemma DecoratedCellsDistinct(t: Table, c: int)
    requires WellFormed(t) && 1 <= c <= t.tmap.width
    ensures var ds := DecoratedCells(t, c);
      forall i, j | 0 <= i < j < |ds| :: ds[i] != ds[j]
  {
    var os := RowDecorations(t, c);
    var ds := DecoratedCells(t, c);
    DecoratedCellsSound(t, c);
    forall i, j | 0 <= i < j < |ds| ensures ds[i] != ds[j] {
      SourceIndexIncreasing(os, i, j);
    }
  }

  /** A cell is decorated exactly when its right edge is the boundary `c`. */
  lemma DecoratedCellsComplete(t: Table, c: int, p: int)
    requires WellFormed(t) && 1 <= c <= t.tmap.width && p in t.tmap.slots
    ensures p in DecoratedCells(t, c) <==> ColCount(t, p) + t.cells[p].attrs.colspan == c
  {
    var os := RowDecorations(t, c);
    var ds := DecoratedCells(t, c);
    CoversOf(t, p);
    FirstSlot(t, p);
    if p in ds {
      DecoratedCellsSound(t, c);
      var k :| 0 <= k < |ds| && ds[k] == p;
    } else if ColCount(t, p) + t.cells[p].attrs.colspan == c {
      var top := TopRow(t, p);
      SpanInSlot(t, p, top, c - 1);
      RowDecorationSpec(t, c, top);
      SomesComplete(os, top);
      assert false;
    }
  }

  /** The handle's own cell always gets a widget under the corrected rule. */
  lemma HandleCellDecorated(t: Table, start: int, cell: int)
    requires WellFormed(t) && cell - start in t.tmap.slots
    ensures WidgetPos(t, start, cell - start) in HandleDecorations(t, start, cell)
  {
    var p := cell - start;
    var c := EdgeColumn(t, p);
    DecoratedCellsComplete(t, c, p);
    var ds := DecoratedCells(t, c);
    var k :| 0 <= k < |ds| && ds[k] == p;
    assert HandleDecorations(t, start, cell)[k] == WidgetPos(t, start, p);
  }

  /*
   * Two 2 x 2 tables on which the code as written and the described rule part.
   * Each row holds two cells of node size 4 at offsets 1 and 5 (first row)
   * and 11 and 15 (second row); a cell spanning two rows leaves no node in
   * the second row.
   */

  const Plain: CellAttrs := CellAttrs(1, 1, None)
  const Tall: CellAttrs := CellAttrs(1, 2, None)

  /** A tall cell at offset 1 in column 0, cell 5 right of it, cell 11 below cell 5. */
  const MissedTable: Table :=
    Table(TableMap(2, 2, [1, 5, 1, 11]), map[1 := Cell(Tall, 4), 5 := Cell(Plain, 4), 11 := Cell(Plain, 4)])

  /** Cells 1 and 11 in column 0, a tall cell 5 in column 1. */
  const TwiceTable: Table :=
    Table(TableMap(2, 2, [1, 5, 11, 5]), map[1 := Cell(Plain, 4), 5 := Cell(Tall, 4), 11 := Cell(Plain, 4)])

  lemma MissedShape()
    ensures Shaped(MissedTable)
    ensures MissedTable.tmap.width == 2 && MissedTable.tmap.height == 2
    ensures MissedTable.tmap.slots == [1, 5, 1, 11]
  {
  }

  lemma MissedCovers1()
    ensures Shaped(MissedTable) && 1 in MissedTable.tmap.slots && Covers(MissedTable, 1)
  {
    var t := MissedTable;
    MissedShape();
    assert Slot(t, 0, 0) == 1 && Slot(t, 0, 1) == 5 && Slot(t, 1, 0) == 1 && Slot(t, 1, 1) == 11;
    FirstIndexIs(t.tmap.slots, 1, 0);
    assert TopRow(t, 1) == 0 && ColCount(t, 1) == 0;
  }

  lemma MissedCovers5()
    ensures Shaped(MissedTable) && 5 in MissedTable.tmap.slots && Covers(MissedTable, 5)
  {
    var t := MissedTable;
    MissedShape();
    assert Slot(t, 0, 0) == 1 && Slot(t, 0, 1) == 5 && Slot(t, 1, 0) == 1 && Slot(t, 1, 1) == 11;
    FirstIndexIs(t.tmap.slots, 5, 1);
    assert TopRow(t, 5) == 0 && ColCount(t, 5) == 1;
  }

  lemma MissedCovers11()
    ensures Shaped(MissedTable) && 11 in MissedTable.tmap.slots && Covers(MissedTable, 11)
  {
    var t := MissedTable;
    MissedShape();
    assert Slot(t, 0, 0) == 1 && Slot(t, 0, 1) == 5 && Slot(t, 1, 0) == 1 && Slot(t, 1, 1) == 11;
    FirstIndexIs(t.tmap.slots, 11, 3);
    assert TopRow(t, 11) == 1 && ColCount(t, 11) == 1;
  }

  lemma MissedTableWellFormed()
    ensures WellFormed(MissedTable)
  {
    var t := MissedTable;
    MissedCovers1();
    MissedCovers5();
    MissedCovers11();
    forall i | 0 <= i < |t.tmap.slots| ensures CoversAt(t, i) {
      assert t.tmap.slots[i] in {1, 5, 11};
    }
  }

  lemma TwiceShape()
    ensures Shaped(TwiceTable)
    ensures TwiceTable.tmap.width == 2 && TwiceTable.tmap.height == 2
    ensures TwiceTable.tmap.slots == [1, 5, 11, 5]
  {
  }

  lemma TwiceCovers1()
    ensures Shaped(TwiceTable) && 1 in TwiceTable.tmap.slots && Covers(TwiceTable, 1)
  {
    var t := TwiceTable;
    TwiceShape();
    assert Slot(t, 0, 0) == 1 && Slot(t, 0, 1) == 5 && Slot(t, 1, 0) == 11 && Slot(t, 1, 1) == 5;
    FirstIndexIs(t.tmap.slots, 1, 0);
    assert TopRow(t, 1) == 0 && ColCount(t, 1) == 0;
  }

  lemma TwiceCovers5()
    ensures Shaped(TwiceTable) && 5 in TwiceTable.tmap.slots && Covers(TwiceTable, 5)
  {
    var t := TwiceTable;
    TwiceShape();
    assert Slot(t, 0, 0) == 1 && Slot(t, 0, 1) == 5 && Slot(t, 1, 0) == 11 && Slot(t, 1, 1) == 5;
    FirstIndexIs(t.tmap.slots, 5, 1);
    assert TopRow(t, 5) == 0 && ColCount(t, 5) == 1;
  }

  lemma TwiceCovers11()
    ensures Shaped(TwiceTable) && 11 in TwiceTable.tmap.slots && Covers(TwiceTable, 11)
  {
    var t := TwiceTable;
    TwiceShape();
    assert Slot(t, 0, 0) == 1 && Slot(t, 0, 1) == 5 && Slot(t, 1, 0) == 11 && Slot(t, 1, 1) == 5;
    FirstIndexIs(t.tmap.slots, 11, 2);
    assert TopRow(t, 11) == 1 && ColCount(t, 11) == 0;
  }

  lemma TwiceTableWellFormed()
    ensures WellFormed(TwiceTable)
  {
    var t := TwiceTable;
    TwiceCovers1();
    TwiceCovers5();
    TwiceCovers11();
    forall i | 0 <= i < |t.tmap.slots| ensures CoversAt(t, i) {
      assert t.tmap.slots[i] in {1, 5, 11};
    }
  }

  /**
   * With the handle on cell 5 of `MissedTable` the boundary is the table's
   * right edge. Cell 11 ends there, but the code compares the two slots of
   * the tall cell in column 0 and so draws no widget for it.
   */
  lemma AsWrittenMissesCell()
    ensures WellFormed(MissedTable)
    ensures EdgeColumn(MissedTable, 5) == 2
    ensures ColCount(MissedTable, 11) + MissedTable.cells[11].attrs.colspan == 2
    ensures DecoratedCellsAsWritten(MissedTable, 2) == [5]
    ensures DecoratedCells(MissedTable, 2) == [5, 11]
  {
    var t := MissedTable;
    MissedTableWellFormed();
    assert FirstIndex(t.tmap.slots, 5) == 1;
    assert FirstIndex(t.tmap.slots, 11) == 3;
    var asWritten := seq(t.tmap.height, r requires 0 <= r < t.tmap.height => RowDecorationAsWritten(t, 2, r));
    assert asWritten == [Some(5), None];
    assert Somes(asWritten) == Somes([Some(5)]);
    var os := RowDecorations(t, 2);
    assert Slot(t, 0, 1) == 5 && Slot(t, 1, 1) == 11;
    assert os == [Some(5), Some(11)];
    assert Somes(os) == Somes([Some(5)]) + [11];
  }

  /**
   * With the handle on the tall cell 5 of `TwiceTable` the code draws its
   * widget twice: in the second row it compares cells 11 and 1, which differ.
   */
  lemma AsWrittenDecoratesTwice()
    ensures WellFormed(TwiceTable)
    ensures EdgeColumn(TwiceTable, 5) == 2
    ensures DecoratedCellsAsWritten(TwiceTable, 2) == [5, 5]
    ensures DecoratedCells(TwiceTable, 2) == [5]
  {
    var t := TwiceTable;
    TwiceTableWellFormed();
    assert FirstIndex(t.tmap.slots, 5) == 1;
    var asWritten := seq(t.tmap.height, r requires 0 <= r < t.tmap.height => RowDecorationAsWritten(t, 2, r));
    assert asWritten == [Some(5), Some(5)];
    assert Somes(asWritten) == Somes([Some(5)]) + [5];
    var os := RowDecorations(t, 2);
    assert Slot(t, 0, 1) == 5 && Slot(t, 1, 1) == 5;
    assert os == [Some(5), None];
    assert Somes(os) == Somes([Some(5)]);
  }

  /**
   * As written, the handle's own cell can go without a widget: with the
   * handle on cell 11 of `MissedTable` the only widget drawn is cell 5's.
   */
  lemma AsWrittenSkipsHandleCell()
    ensures WellFormed(MissedTable) && 11 in MissedTable.tmap.slots
    ensures EdgeColumn(MissedTable, 11) == 2
    ensures HandleDecorationsAsWritten(MissedTable, 0, 11) == [WidgetPos(MissedTable, 0, 5)]
    ensures WidgetPos(MissedTable, 0, 11) !in HandleDecorationsAsWritten(MissedTable, 0, 11)
    ensures WidgetPos(MissedTable, 0, 11) in HandleDecorations(MissedTable, 0, 11)
  {
    var t := MissedTable;
    AsWrittenMissesCell();
    MissedCovers11();
    assert FirstIndex(t.tmap.slots, 11) == 3;
    assert EdgeColumn(t, 11) == 2;
    HandleCellDecorated(t, 0, 11);
  }
}

=== FILE: image_node.dfy ===
/**
 * The attribute logic of the image node: how a markdown image title is
 * split into a layout class or a plain title, how the attributes are written
 * back as markdown, how a parsed image token becomes attributes, and the
 * three alignment commands.
 *
 * Attribute values that default to `null` are `Option`s; a JavaScript value
 * is truthy here when it is present and not the empty string.
 */
module ImageNode {
  import opened Wrappers

  /** The image node's attributes `src`, `alt`, `layoutClass` and `title`. */
  datatype ImageAttrs = ImageAttrs(src: string, alt: Option<string>, layoutClass: Option<string>, title: Option<string>)

  /** The part of the attributes a markdown title decides; an absent key is `None`. */
  datatype LayoutAndTitle = LayoutAndTitle(layoutClass: Option<string>, title: Option<string>)

  predicate Truthy(o: Option<string>) {
    o.Some? && o.value != ""
  }

  /** `IMAGE_CLASSES`: the titles that name a layout rather than a caption. */
  const ImageClasses: set<string> := {"right-50", "left-50"}

  /** `getLayoutAndTitle(tokenTitle)` */
  function GetLayoutAndTitle(tokenTitle: Option<string>): (r: LayoutAndTitle)
    ensures !Truthy(tokenTitle) ==> r == LayoutAndTitle(None, None)
    ensures Truthy(tokenTitle) && tokenTitle.value in ImageClasses ==> r == LayoutAndTitle(tokenTitle, None)
    ensures Truthy(tokenTitle) && tokenTitle.value !in ImageClasses ==> r == LayoutAndTitle(None, tokenTitle)
  {
    if !Truthy(tokenTitle) then LayoutAndTitle(None, None)
    else if tokenTitle.value in ImageClasses then LayoutAndTitle(tokenTitle, None)
    else LayoutAndTitle(None, tokenTitle)
  }

  /** The index of the first `c` in `s`. */
  function IndexOf(s: string, c: char): (i: nat)
    requires c in s
    ensures i < |s| && s[i] == c && c !in s[..i]
  {
    if s[0] == c then 0
    else
      var j := IndexOf(s[1..], c);
      assert s[..j + 1] == [s[0]] + s[1..][..j];
      j + 1
  }

  /** `s.replace(c, "")` with a one-character string pattern: only the first occurrence goes. */
  function RemoveFirst(s: string, c: char): (r: string)
    ensures c !in s ==> r == s
    ensures c in s ==> r == s[..IndexOf(s, c)] + s[IndexOf(s, c) + 1..]
    decreases |s|
  {
    if |s| == 0 then ""
    else if s[0] == c then s[1..]
    else
      var rest := RemoveFirst(s[1..], c);
      assert c in s ==> s[..IndexOf(s, c)] == [s[0]] + s[1..][..IndexOf(s[1..], c)];
      [s[0]] + rest
  }

  /** The alt text `toMarkdown` writes: `(alt || "").replace("\n", "") || ""`. */
  function AltText(alt: Option<string>): (r: string)
    ensures |r| <= |alt.GetOr("")|
    ensures '\n' !in alt.GetOr("") ==> r == alt.GetOr("")
  {
    RemoveFirst(alt.GetOr(""), '\n')
  }

  /** A second line break in the alt text survives. */
  lemma AltTextKeepsSecondBreak()
    ensures AltText(Some("a\n\nb")) == "a\nb"
  {
    var s := "a\n\nb";
    assert s[0] == 'a' && s[1] == '\n';
    assert RemoveFirst(s[1..], '\n') == s[2..];
    assert [s[0]] + s[2..] == "a\nb";
  }

  /** The value `toMarkdown` writes in quotes: `layoutClass` if truthy, else `title` if truthy, else nothing. */
  function EmittedTitle(a: ImageAttrs): (t: Option<string>)
    ensures t.Some? ==> t.value != ""
    ensures Truthy(a.layoutClass) ==> t == a.layoutClass
    ensures !Truthy(a.layoutClass) ==> t == (if Truthy(a.title) then a.title else None)
  {
    if Truthy(a.layoutClass) then a.layoutClass
    else if Truthy(a.title) then a.title
    else None
  }

  /**
   * `toMarkdown(state, node)`: the text written for the image, with
   * `state.esc` as the opaque escaping function `esc`.
   */
  function ToMarkdown(esc: string -> string, a: ImageAttrs): (md: string)
    ensures var head := " ![" + esc(AltText(a.alt)) + "](" + esc(a.src);
      && (Truthy(a.layoutClass) ==> md == head + " \"" + esc(a.layoutClass.value) + "\"" + ")")
      && (!Truthy(a.layoutClass) && Truthy(a.title) ==> md == head + " \"" + esc(a.title.value) + "\"" + ")")
      && (!Truthy(a.layoutClass) && !Truthy(a.title) ==> md == head + ")")
  {
    var head := " ![" + esc(AltText(a.alt)) + "](" + esc(a.src);
    match EmittedTitle(a)
    case Some(t) => head + " \"" + esc(t) + "\"" + ")"
    case None => head + ")"
  }

  /** The markdown image token: its `src` and `title` attributes and the contents of its children. */
  datatype ImageToken = ImageToken(src: string, title: Option<string>, children: seq<string>)

  /** `parseMarkdown().getAttrs(token)` */
  function ParseMarkdownAttrs(token: ImageToken): (a: ImageAttrs)
    ensures a.src == token.src
    ensures a.alt.Some? <==> |token.children| > 0 && token.children[0] != ""
    ensures a.alt.Some? ==> a.alt.value == token.children[0]
    ensures LayoutAndTitle(a.layoutClass, a.title) == GetLayoutAndTitle(token.title)
  {
    var alt := if |token.children| > 0 && token.children[0] != "" then Some(token.children[0]) else None;
    var lt := GetLayoutAndTitle(token.title);
    ImageAttrs(token.src, alt, lt.layoutClass, lt.title)
  }

  /**
   * Attributes whose layout and title survive a write and a re-read: a
   * layout class is one of `ImageClasses` and excludes a title, and a title
   * is non-empty and not a layout class name.
   */
  predicate Canonical(a: ImageAttrs) {
    && (a.layoutClass.Some? ==> a.layoutClass.value in ImageClasses && a.title.None?)
    && (a.title.Some? ==> a.title.value != "" && a.title.value !in ImageClasses)
  }

  /** Writing canonical attributes' title and reading it back gives the same layout and title. */
  lemma TitleRoundTrip(a: ImageAttrs)
    requires Canonical(a)
    ensures GetLayoutAndTitle(EmittedTitle(a)) == LayoutAndTitle(a.layoutClass, a.title)
  {
  }

  /**
   * Reading a title always gives canonical attributes, and writing them
   * back emits the title read, unless it was empty.
   */
  lemma ParsedTitleRoundTrip(token: ImageToken)
    ensures Canonical(ParseMarkdownAttrs(token))
    ensures EmittedTitle(ParseMarkdownAttrs(token)) == if Truthy(token.title) then token.title else None
  {
  }

  /** `alignRight`: layout `right-50`, no title, everything else kept. */
  function AlignRight(a: ImageAttrs): (r: ImageAttrs)
    ensures r.src == a.src && r.alt == a.alt
    ensures r.layoutClass == Some("right-50") && r.title.None?
  {
    a.(title := None, layoutClass := Some("right-50"))
  }

  /** `alignLeft`: layout `left-50`, no title, everything else kept. */
  function AlignLeft(a: ImageAttrs): (r: ImageAttrs)
    ensures r.src == a.src && r.alt == a.alt
    ensures r.layoutClass == Some("left-50") && r.title.None?
  {
    a.(title := None, layoutClass := Some("left-50"))
  }

  /** `alignCenter`: no layout class, title and everything else kept. */
  function AlignCenter(a: ImageAttrs): (r: ImageAttrs)
    ensures r.src == a.src && r.alt == a.alt && r.title == a.title
    ensures r.layoutClass.None?
  {
    a.(layoutClass := None)
  }

  /**
   * After an alignment command the layout survives the markdown round trip:
   * left and right are written as the title and read back as the layout
   * class; centring writes the caption, which reads back as the same title
   * when it was canonical.
   */
  lemma AlignedRoundTrip(a: ImageAttrs)
    ensures GetLayoutAndTitle(EmittedTitle(AlignRight(a))) == LayoutAndTitle(Some("right-50"), None)
    ensures GetLayoutAndTitle(EmittedTitle(AlignLeft(a))) == LayoutAndTitle(Some("left-50"), None)
    ensures Canonical(a) ==> GetLayoutAndTitle(EmittedTitle(AlignCenter(a))) == LayoutAndTitle(None, a.title)
  {
    assert Canonical(AlignRight(a)) && Canonical(AlignLeft(a));
    if Canonical(a) {
      TitleRoundTrip(AlignCenter(a));
    }
  }

  /** A layout class takes precedence: a caption set alongside one is not written. */
  lemma LayoutHidesTitle(esc: string -> string, a: ImageAttrs)
    requires Truthy(a.layoutClass) && Truthy(a.title)
    ensures ToMarkdown(esc, a) == ToMarkdown(esc, a.(title := None))
  {
  }
}

=== FILE: option_seq.dfy ===
/**
 * Collecting the present values of a sequence of options, in order: the
 * shape of a loop that visits positions `0 .. n-1` and pushes a value for
 * some of them.
 */
module OptionSeq {
  import opened Wrappers

  /** The values of the `Some` entries of `os`, in the order they occur. */
  function Somes<T>(os: seq<Option<T>>): (r: seq<T>)
    ensures |r| <= |os|
    decreases |os|
  {
    if |os| == 0 then []
    else
      var last := os[|os| - 1];
      Somes(os[..|os| - 1]) + (if last.Some? then [last.value] else [])
  }

  /** The entry of `os` that the `k`-th collected value came from. */
  function SourceIndex<T>(os: seq<Option<T>>, k: nat): (i: nat)
    requires k < |Somes(os)|
    ensures i < |os| && os[i] == Some(Somes(os)[k])
    decreases |os|
  {
    var n := |os| - 1;
    var prev := Somes(os[..n]);
    if k < |prev| then
      var i := SourceIndex(os[..n], k);
      assert os[..n][i] == os[i];
      i
    else
      n
  }

  /** Later collected values come from later entries. */
  lemma {:induction false} SourceIndexIncreasing<T>(os: seq<Option<T>>, k1: nat, k2: nat)
    requires k1 < k2 < |Somes(os)|
    ensures SourceIndex(os, k1) < SourceIndex(os, k2)
    decreases |os|
  {
    var n := |os| - 1;
    var prev := Somes(os[..n]);
    if k2 < |prev| {
      SourceIndexIncreasing(os[..n], k1, k2);
    } else {
      assert SourceIndex(os, k1) < n;
    }
  }

  /** Every `Some` entry is collected. */
  lemma {:induction false} SomesComplete<T>(os: seq<Option<T>>, i: nat)
    requires i < |os| && os[i].Some?
    ensures exists k | 0 <= k < |Somes(os)| :: SourceIndex(os, k) == i && Somes(os)[k] == os[i].value
    decreases |os|
  {
    var n := |os| - 1;
    var prev := Somes(os[..n]);
    if i < n {
      assert os[..n][i] == os[i];
      SomesComplete(os[..n], i);
      var k :| 0 <= k < |prev| && SourceIndex(os[..n], k) == i && prev[k] == os[i].value;
      assert SourceIndex(os, k) == i;
    } else {
      assert SourceIndex(os, |prev|) == i;
    }
  }

  /** Nothing is collected exactly when every entry is `None`. */
  lemma {:induction false} SomesEmpty<T>(os: seq<Option<T>>)
    ensures Somes(os) == [] <==> forall i | 0 <= i < |os| :: os[i].None?
    decreases |os|
  {
    if |os| > 0 {
      var n := |os| - 1;
      SomesEmpty(os[..n]);
      assert forall i | 0 <= i < n :: os[..n][i] == os[i];
    }
  }
}

=== FILE: positions.dfy ===
/**
 * Resolved document positions, reduced to what the resize plugin reads: the
 * `tableRole` of each ancestor, the position before each ancestor, and
 * whether a node follows the position.
 */
module Positions {
  import opened Wrappers

  /** One ancestor of a position: its node type's `tableRole` and the position just before it. */
  datatype Level = Level(role: Option<string>, before: int)

  /** Ancestors from the document root (depth 0) to the parent (depth `|path| - 1`). */
  type Path = p: seq<Level> | |p| > 0 witness [Level(None, 0)]

  datatype ResolvedPos = ResolvedPos(pos: int, path: Path, hasNodeAfter: bool) {
    function Depth(): nat {
      |path| - 1
    }

    function Parent(): Level {
      path[|path| - 1]
    }
  }

  const RowRole: Option<string> := Some("row")

  /** `pointsAtCell($pos)`: the parent is a table row and a node (a cell) follows. */
  predicate PointsAtCell(p: ResolvedPos) {
    p.Parent().role == RowRole && p.hasNodeAfter
  }

  /** The loop of `cellAround` from depth `d` downwards to depth 1. */
  function CellAroundFrom(p: ResolvedPos, d: int): (r: Option<int>)
    requires d < p.Depth()
    ensures r.Some? ==> exists e | 1 <= e <= d :: p.path[e].role == RowRole && r.value == p.path[e + 1].before
    decreases d
  {
    if d <= 0 then None
    else if p.path[d].role == RowRole then Some(p.path[d + 1].before)
    else CellAroundFrom(p, d - 1)
  }

  /** `cellAround($pos)`: the position before the cell that encloses `p`, if any. */
  function CellAround(p: ResolvedPos): (r: Option<int>)
    ensures r.Some? ==> exists d | 1 <= d < p.Depth() :: p.path[d].role == RowRole && r.value == p.path[d + 1].before
  {
    CellAroundFrom(p, p.Depth() - 1)
  }

  /** Depth `d` is the deepest row among depths `1 .. depth-1`. */
  predicate DeepestRow(p: ResolvedPos, d: int) {
    && 1 <= d < p.Depth()
    && p.path[d].role == RowRole
    && forall e | d < e < p.Depth() :: p.path[e].role != RowRole
  }

  lemma {:induction false} CellAroundFromSpec(p: ResolvedPos, d: int)
    requires d < p.Depth()
    requires forall e | 0 <= e && d < e < p.Depth() :: p.path[e].role != RowRole
    ensures CellAroundFrom(p, d).Some? <==> exists e | 1 <= e <= d :: p.path[e].role == RowRole
    ensures forall e | DeepestRow(p, e) :: CellAroundFrom(p, d) == Some(p.path[e + 1].before)
    decreases d
  {
    if d > 0 && p.path[d].role != RowRole {
      CellAroundFromSpec(p, d - 1);
    }
  }

  /**
   * `cellAround` finds an enclosing cell exactly when some ancestor at depths
   * `1 .. depth-1` is a row (the root and the parent are never checked), and
   * then returns the position before the child of the deepest such row.
   */
  lemma CellAroundSpec(p: ResolvedPos)
    ensures CellAround(p).Some? <==> exists d | 1 <= d < p.Depth() :: p.path[d].role == RowRole
    ensures forall d | DeepestRow(p, d) :: CellAround(p) == Some(p.path[d + 1].before)
  {
    CellAroundFromSpec(p, p.Depth() - 1);
  }
}

=== FILE: resize_plugin.dfy ===
/**
 * The resize plugin's state machine: the `(activeHandle, dragging)` state,
 * its `apply` on each transaction, and the DOM-event handlers reduced to the
 * actions they dispatch.
 *
 * The DOM is replaced by inputs: the hovered cell's bounding box, the
 * position `posAtCoords` finds (already resolved), the table around a cell
 * with the position its content starts at, and a cell's rendered width.
 * A transaction is its plugin meta, whether it changed the document, its
 * position mapping and `resolve` in the new document.
 */
module ResizePlugin {
  import opened Wrappers
  import opened Positions
  import opened CellAttrsCodec
  import opened TableGrid
  import opened WidthCommit
  import opened Decorations

  /** `activeHandle`: a document position (`-1` for none), or `null` as the code stores a stale one. */
  datatype Handle = Pos(n: int) | NullHandle

  const NoHandle: Handle := Pos(-1)

  /**
   * What a handler or prop does: returns a value, or throws. A `null`
   * handle resolves at depth 0, where the table lookup `$cell.node(-1)` and
   * `doc.nodeAt(null)` throw.
   */
  datatype Outcome<T> = Returned(value: T) | Threw

  /** `dragging` is `false` or `null` (`None`) or the drag record. */
  datatype ResizeState = ResizeState(activeHandle: Handle, dragging: Option<Drag>)

  /** `new ResizeState(-1, false)` */
  const InitialState: ResizeState := ResizeState(NoHandle, None)

  /** The plugin's meta on a transaction: `{setHandle}` or `{setDragging}` (`null` is `None`). */
  datatype Action = SetHandle(handle: int) | SetDragging(drag: Option<Drag>)

  datatype Transaction = Transaction(
    meta: Option<Action>,
    docChanged: bool,
    mapping: int -> int,      // `tr.mapping.map(pos, -1)`
    resolve: int -> ResolvedPos)  // `tr.doc.resolve(pos)`

  /** JavaScript's `handle > -1`: `null` converts to 0, so a `null` handle counts as active. */
  predicate IsActive(h: Handle) {
    match h
    case Pos(n) => n > -1
    case NullHandle => true
  }

  /**
   * A handle `doc.resolve` accepts as a position before a cell: not `null`
   * (which resolves at depth 0, outside any table) and not negative (which
   * `doc.resolve` rejects with a `RangeError`).
   */
  predicate AtPosition(h: Handle) {
    h.Pos? && h.n > -1
  }

  /** The number JavaScript uses for a handle in arithmetic: `null` is 0. */
  function HandleNumber(h: Handle): int {
    match h
    case Pos(n) => n
    case NullHandle => 0
  }

  /**
   * `ResizeState.apply` as written: a handle that no longer points at a cell
   * becomes `null`, and a drag in progress is kept. It agrees with `Apply`
   * except exactly there, where `Apply` returns to the initial state.
   */
  function ApplyAsWritten(s: ResizeState, tr: Transaction): (s': ResizeState)
    ensures tr.meta.None? && !tr.docChanged ==> s' == s
    ensures s' != Apply(s, tr) <==>
      tr.meta.None? && IsActive(s.activeHandle) && tr.docChanged
      && !PointsAtCell(tr.resolve(tr.mapping(HandleNumber(s.activeHandle))))
    ensures s' != Apply(s, tr) ==> s' == ResizeState(NullHandle, s.dragging) && Apply(s, tr) == InitialState
  {
    match tr.meta
    case Some(SetHandle(h)) => ResizeState(Pos(h), None)
    case Some(SetDragging(d)) => ResizeState(s.activeHandle, d)
    case None =>
      if IsActive(s.activeHandle) && tr.docChanged then
        var mapped := tr.mapping(HandleNumber(s.activeHandle));
        var handle := if PointsAtCell(tr.resolve(mapped)) then Pos(mapped) else NullHandle;
        ResizeState(handle, s.dragging)
      else s
  }

  /**
   * `ResizeState.apply` with a stale handle reset: a `setHandle` meta arms
   * the handle and ends any drag, a `setDragging` meta replaces the drag, and
   * a document change remaps an active handle, keeping it with the drag while
   * it points at a cell, and otherwise going back to the initial state: the
   * handle `-1` and no drag, since a drag has no column left to resize.
   */
  function Apply(s: ResizeState, tr: Transaction): (s': ResizeState)
    ensures tr.meta.Some? && tr.meta.value.SetHandle? ==> s' == ResizeState(Pos(tr.meta.value.handle), None)
    ensures tr.meta.Some? && tr.meta.value.SetDragging? ==>
      s'.activeHandle == s.activeHandle && s'.dragging == tr.meta.value.drag
    ensures tr.meta.None? && !(IsActive(s.activeHandle) && tr.docChanged) ==> s' == s
    ensures tr.meta.None? && IsActive(s.activeHandle) && tr.docChanged ==>
      && var mapped := tr.mapping(HandleNumber(s.activeHandle));
      && (PointsAtCell(tr.resolve(mapped)) ==> s' == ResizeState(Pos(mapped), s.dragging))
      && (!PointsAtCell(tr.resolve(mapped)) ==> s' == InitialState)
  {
    match tr.meta
    case Some(SetHandle(h)) => ResizeState(Pos(h), None)
    case Some(SetDragging(d)) => ResizeState(s.activeHandle, d)
    case None =>
      if IsActive(s.activeHandle) && tr.docChanged then
        var mapped := tr.mapping(HandleNumber(s.activeHandle));
        if PointsAtCell(tr.resolve(mapped)) then ResizeState(Pos(mapped), s.dragging) else InitialState
      else s
  }

  /**
   * After a document change without meta, a state that holds a position
   * still holds one, and an active handle points at a cell of the new document.
   */
  lemma ApplyKeepsHandleOnCell(s: ResizeState, tr: Transaction)
    requires tr.meta.None? && tr.docChanged && s.activeHandle.Pos?
    ensures var s' := Apply(s, tr);
      && s'.activeHandle.Pos?
      && (IsActive(s'.activeHandle) ==> PointsAtCell(tr.resolve(s'.activeHandle.n)))
  {
  }

  /** `attributes(state)`: the editor gets the `resize-cursor` class exactly while a handle is active. */
  function CursorClass(s: ResizeState): (c: Option<string>)
    ensures c.Some? <==> IsActive(s.activeHandle)
    ensures c.Some? ==> c.value == "resize-cursor"
  {
    if IsActive(s.activeHandle) then Some("resize-cursor") else None
  }

  /** The hovered cell's `getBoundingClientRect()`. */
  datatype Rect = Rect(left: int, right: int)

  datatype Side = Left | Right

  /**
   * The left-side lookup of `edgeCell` inside the table: the cell in the
   * slot before the cell's first slot, or none when that first slot starts
   * a row.
   */
  function LeftNeighbour(t: Table, p: int): Option<int>
    requires Shaped(t) && p in t.tmap.slots
  {
    var index := FirstIndex(t.tmap.slots, p);
    if index % t.tmap.width == 0 then None else Some(t.tmap.slots[index - 1])
  }

  /**
   * A cell has a left neighbour exactly when it does not start in column 0,
   * and the neighbour is the cell whose right edge is the cell's left edge,
   * in the cell's first row.
   */
  lemma LeftNeighbourSpec(t: Table, p: int)
    requires WellFormed(t) && p in t.tmap.slots
    ensures 0 <= TopRow(t, p) < t.tmap.height && 0 <= ColCount(t, p) < t.tmap.width
    ensures LeftNeighbour(t, p).None? <==> ColCount(t, p) == 0
    ensures LeftNeighbour(t, p).Some? ==>
      var q := LeftNeighbour(t, p).value;
      && q in t.tmap.slots
      && q == Slot(t, TopRow(t, p), ColCount(t, p) - 1)
      && EdgeColumn(t, q) == ColCount(t, p)
  {
    FirstSlot(t, p);
    if ColCount(t, p) != 0 {
      LeftNeighbourSlot(t, p);
      NeighbourEndsAt(t, p);
    }
  }

  /** Off column 0, the cell left of a cell's first slot ends at the cell's first column. */
  lemma NeighbourEndsAt(t: Table, p: int)
    requires WellFormed(t) && p in t.tmap.slots && ColCount(t, p) != 0
    ensures 0 <= TopRow(t, p) < t.tmap.height && 0 < ColCount(t, p) < t.tmap.width
    ensures EdgeColumn(t, Slot(t, TopRow(t, p), ColCount(t, p) - 1)) == ColCount(t, p)
  {
    FirstSlot(t, p);
    var top := TopRow(t, p);
    var left := ColCount(t, p);
    var q := Slot(t, top, left - 1);
    SpanInSlot(t, p, top, left - 1);
    assert q != p;
    SlotInSpan(t, top, left - 1);
    SpanInSlot(t, q, top, left);
    assert Slot(t, top, left) == p;
    assert !(ColCount(t, q) <= left < ColCount(t, q) + t.cells[q].attrs.colspan);
  }

  /** Off column 0, the slot before a cell's first slot is the one left of it in the cell's top row. */
  lemma LeftNeighbourSlot(t: Table, p: int)
    requires Shaped(t) && p in t.tmap.slots && ColCount(t, p) != 0
    ensures 0 <= TopRow(t, p) < t.tmap.height && 0 < ColCount(t, p) < t.tmap.width
    ensures LeftNeighbour(t, p) == Some(Slot(t, TopRow(t, p), ColCount(t, p) - 1))
  {
    FirstSlot(t, p);
    var w := t.tmap.width;
    var i := FirstIndex(t.tmap.slots, p);
    assert i == TopRow(t, p) * w + ColCount(t, p);
    assert i - 1 == TopRow(t, p) * w + (ColCount(t, p) - 1);
  }

  /**
   * `edgeCell`: the handle for the boundary on `side` of the cell around the
   * position under the pointer. `t` is the table around that cell and
   * `start` the position its content starts at.
   */
  function EdgeCell(found: Option<ResolvedPos>, side: Side, t: Table, start: int): (h: int)
    requires found.Some? && CellAround(found.value).Some? ==>
      WellFormed(t) && CellAround(found.value).value - start in t.tmap.slots
    ensures found.None? || CellAround(found.value).None? ==> h == -1
    ensures found.Some? && CellAround(found.value).Some? && side == Right ==> h == CellAround(found.value).value
    ensures found.Some? && CellAround(found.value).Some? && side == Left && h != -1 ==> h - start in t.tmap.slots
  {
    if found.None? then -1
    else
      match CellAround(found.value)
      case None => -1
      case Some(cell) =>
        if side == Right then cell
        else
          match LeftNeighbour(t, cell - start)
          case None => -1
          case Some(q) => start + q
  }

  /**
   * The handle `edgeCell` finds names the cell left of the boundary the
   * pointer is near: no handle without a cell under the pointer; the cell
   * itself on its right side; on its left side, the neighbour whose right
   * edge is the cell's left edge, or no handle when the cell starts in
   * column 0.
   */
  lemma EdgeCellBoundary(found: Option<ResolvedPos>, side: Side, t: Table, start: int)
    requires start >= 0
    requires found.Some? && CellAround(found.value).Some? ==>
      WellFormed(t) && CellAround(found.value).value - start in t.tmap.slots
    ensures found.None? || CellAround(found.value).None? ==> EdgeCell(found, side, t, start) == -1
    ensures found.Some? && CellAround(found.value).Some? ==>
      var p := CellAround(found.value).value - start;
      var h := EdgeCell(found, side, t, start);
      && (side == Right ==> h == start + p)
      && (side == Left ==> (ColCount(t, p) == 0 <==> h == -1))
      && (side == Left && ColCount(t, p) != 0 ==>
            h - start in t.tmap.slots && EdgeColumn(t, h - start) == ColCount(t, p))
  {
    if found.Some? && CellAround(found.value).Some? {
      LeftNeighbourSpec(t, CellAround(found.value).value - start);
    }
  }

  /** The handle the pointer position selects: the left edge zone is checked first. */
  function HoverHandle(target: Option<Rect>, clientX: int, handleWidth: int, leftCell: int, rightCell: int): (h: int)
    ensures target.None? ==> h == -1
    ensures h == -1 || h == leftCell || h == rightCell
    ensures target.Some? && clientX - target.value.left <= handleWidth ==> h == leftCell
    ensures target.Some? && clientX - target.value.left > handleWidth && target.value.right - clientX <= handleWidth ==>
      h == rightCell
    ensures target.Some? && clientX - target.value.left > handleWidth && target.value.right - clientX > handleWidth ==>
      h == -1
  {
    match target
    case None => -1
    case Some(rect) =>
      if clientX - rect.left <= handleWidth then leftCell
      else if rect.right - clientX <= handleWidth then rightCell
      else -1
  }

  /**
   * `handleMouseMove` once the hovered handle `cell` is known: nothing while
   * dragging or when the handle is unchanged; with `lastColumnResizable`
   * off, nothing for a handle on the table's last column; otherwise a
   * `setHandle`. `t` and `start` describe the table around `cell`.
   */
  function MouseMove(s: ResizeState, cell: int, lastColumnResizable: bool, t: Table, start: int): (a: Option<Action>)
    requires cell != -1 ==> WellFormed(t) && cell - start in t.tmap.slots
    ensures s.dragging.Some? ==> a.None?
    ensures s.activeHandle == Pos(cell) ==> a.None?
    ensures a.Some? ==> a.value == SetHandle(cell)
    ensures s.dragging.None? && s.activeHandle != Pos(cell) && (lastColumnResizable || cell == -1) ==> a.Some?
    ensures !lastColumnResizable && cell != -1 ==>
      (a.Some? <==> s.dragging.None? && s.activeHandle != Pos(cell) && LastColumn(t, cell - start) != t.tmap.width - 1)
  {
    if s.dragging.Some? then None
    else if s.activeHandle == Pos(cell) then None
    else if !lastColumnResizable && cell != -1 && LastColumn(t, cell - start) == t.tmap.width - 1 then None
    else Some(SetHandle(cell))
  }

  /**
   * `handleMouseMove` from the pointer to the action: the zone test picks the
   * left or right `edgeCell` of the hovered cell, and the handler arms it
   * unless dragging, unchanged or vetoed. A pointer in the right zone of a
   * cell, away from the left zone, arms that cell itself.
   */
  lemma HoverArmsEdgeCell(s: ResizeState, target: Option<Rect>, clientX: int, handleWidth: int,
                          found: Option<ResolvedPos>, t: Table, start: int)
    requires found.Some? && CellAround(found.value).Some? ==>
      WellFormed(t) && CellAround(found.value).value - start in t.tmap.slots
    requires target.Some? && clientX - target.value.left > handleWidth && target.value.right - clientX <= handleWidth
    requires found.Some? && CellAround(found.value).Some?
    requires s.dragging.None? && s.activeHandle != Pos(CellAround(found.value).value)
    ensures var cell := HoverHandle(target, clientX, handleWidth, EdgeCell(found, Left, t, start), EdgeCell(found, Right, t, start));
      && cell == CellAround(found.value).value
      && MouseMove(s, cell, true, t, start) == Some(SetHandle(cell))
  {
  }

  /** `handleMouseLeave`: reset the handle when one is active and no drag is in progress. */
  function MouseLeave(s: ResizeState): (a: Option<Action>)
    ensures a.Some? <==> IsActive(s.activeHandle) && s.dragging.None?
    ensures a.Some? ==> a.value == SetHandle(-1)
  {
    if IsActive(s.activeHandle) && s.dragging.None? then Some(SetHandle(-1)) else None
  }

  /** `handleMouseDown` refuses when the handle equals `-1` or a drag is in progress. */
  predicate MouseDownRefuses(s: ResizeState) {
    s.activeHandle == NoHandle || s.dragging.Some?
  }

  /**
   * `handleMouseDown`: start a drag from the pointer's `clientX` and the
   * handle cell's current width; `offsetWidth` is the cell's rendered width.
   * A `null` handle passes the guard, and `doc.nodeAt(null)` then throws.
   */
  function MouseDown(s: ResizeState, clientX: int, t: Table, start: int, offsetWidth: int): (a: Outcome<Option<Action>>)
    requires !MouseDownRefuses(s) && s.activeHandle.Pos? ==> WellFormed(t) && s.activeHandle.n - start in t.tmap.slots
    ensures a.Threw? <==> !MouseDownRefuses(s) && s.activeHandle.NullHandle?
    ensures a.Returned? ==> (a.value.None? <==> MouseDownRefuses(s))
    ensures a.Returned? && a.value.Some? ==>
      var p := s.activeHandle.n - start;
      && a.value.value.SetDragging?
      && a.value.value.drag == Some(Drag(clientX, CurrentColWidth(t.cells[p].attrs, offsetWidth).value))
  {
    if MouseDownRefuses(s) then Returned(None)
    else if s.activeHandle.NullHandle? then Threw
    else
      var p := s.activeHandle.n - start;
      var a := t.cells[p].attrs;
      CurrentColWidthDefined(a, offsetWidth);
      Returned(Some(SetDragging(Some(Drag(clientX, CurrentColWidth(a, offsetWidth).value)))))
  }

  /** A real that is a whole number: a width the model's `colwidth` lists can hold. */
  predicate IsWhole(x: real) {
    x.Floor as real == x
  }

  /** A drag that starts from a whole width, with a whole minimum, drags to a whole width. */
  lemma DraggedWidthWhole(d: Drag, clientX: int, cellMinWidth: int)
    requires IsWhole(d.startWidth)
    ensures IsWhole(DraggedWidth(d, clientX, cellMinWidth))
  {
    var n := d.startWidth.Floor;
    assert d.startWidth + (clientX - d.startX) as real == (n + clientX - d.startX) as real;
  }

  /** A drag from a cell whose last `colwidth` entry is set starts from that whole width. */
  lemma MouseDownFromSetWidth(s: ResizeState, clientX: int, t: Table, start: int, offsetWidth: int)
    requires s.activeHandle.Pos? && !MouseDownRefuses(s)
    requires WellFormed(t) && s.activeHandle.n - start in t.tmap.slots
    requires LastWidthSet(t.cells[s.activeHandle.n - start].attrs)
    ensures var a := MouseDown(s, clientX, t, start, offsetWidth);
      && a.Returned? && a.value.Some? && a.value.value.SetDragging? && a.value.value.drag.Some?
      && IsWhole(a.value.value.drag.value.startWidth)
  {
    var ws := t.cells[s.activeHandle.n - start].attrs.colwidth.value;
    assert (ws[|ws| - 1] as real).Floor == ws[|ws| - 1];
  }

  /**
   * What `finish` does at mouse-up during a drag: the dragged width, the
   * commit `updateColumnWidth` makes of it, and the `setDragging: null` that
   * ends the drag. `commit` is `None` for a fractional width, which the
   * model's integer width lists cannot hold.
   */
  datatype Finished = Finished(width: real, commit: Option<Commit>, action: Action)

  /**
   * `finish`: nothing without a drag; otherwise commit the dragged width to
   * the handle's column in the table `t` (content start `start`) and end the
   * drag. Unless the handle is a position, `updateColumnWidth` throws
   * (`-1` in `doc.resolve`, `null` in the table lookup), before the drag is
   * ended.
   */
  function Finish(s: ResizeState, clientX: int, cellMinWidth: int, t: Table, start: int): (f: Outcome<Option<Finished>>)
    requires s.dragging.Some? && AtPosition(s.activeHandle) ==> WellFormed(t) && s.activeHandle.n - start in t.tmap.slots
    ensures f.Threw? <==> s.dragging.Some? && !AtPosition(s.activeHandle)
    ensures f.Returned? ==> (f.value.Some? <==> s.dragging.Some?)
    ensures f.Returned? && f.value.Some? ==>
      var w := DraggedWidth(s.dragging.value, clientX, cellMinWidth);
      && f.value.value.width == w
      && f.value.value.action == SetDragging(None)
      && (f.value.value.commit.Some? <==> IsWhole(w))
      && (IsWhole(w) ==> f.value.value.commit.value == UpdateColumnWidth(t, start, s.activeHandle.n, w.Floor))
  {
    match s.dragging
    case None => Returned(None)
    case Some(d) =>
      if !AtPosition(s.activeHandle) then Threw
      else
        var w := DraggedWidth(d, clientX, cellMinWidth);
        var commit := if IsWhole(w) then Some(UpdateColumnWidth(t, start, s.activeHandle.n, w.Floor)) else None;
        Returned(Some(Finished(w, commit, SetDragging(None))))
  }

  /**
   * Finishing a drag from a whole start width commits the dragged width:
   * once the commit is applied, every cell covering the handle's last column
   * carries it, and the table is still well formed.
   */
  lemma FinishCommitsDraggedWidth(s: ResizeState, clientX: int, cellMinWidth: int, t: Table, start: int, r: int)
    requires s.dragging.Some? && AtPosition(s.activeHandle)
    requires WellFormed(t) && s.activeHandle.n - start in t.tmap.slots && 0 <= r < t.tmap.height
    requires IsWhole(s.dragging.value.startWidth)
    ensures var f := Finish(s, clientX, cellMinWidth, t, start);
      var w := DraggedWidth(s.dragging.value, clientX, cellMinWidth).Floor;
      var col := LastColumn(t, s.activeHandle.n - start);
      && f.Returned? && f.value.Some? && f.value.value.commit.Some?
      && var t' := ApplyCommit(t, start, f.value.value.commit.value);
      && WellFormed(t')
      && HasWidthAt(t'.cells[Slot(t', r, col)].attrs, LocalIndex(t', Slot(t', r, col), col), w)
  {
    DraggedWidthWhole(s.dragging.value, clientX, cellMinWidth);
    var w := DraggedWidth(s.dragging.value, clientX, cellMinWidth).Floor;
    UpdateColumnWidthCommits(t, start, s.activeHandle.n, w, r);
  }

  /** `move`: a released button finishes the drag, otherwise the dragged width is displayed. */
  datatype Moved = FinishDrag | Display(width: real)

  /**
   * `move`, the pointer listener that stays attached from mousedown to
   * mouse-up. With the button held it reads `dragging.startX`, which throws
   * once the drag is gone, and `displayColumnWidth` resolves the handle,
   * which throws unless it is a position.
   */
  function Move(s: ResizeState, buttonHeld: bool, clientX: int, cellMinWidth: int): (m: Outcome<Moved>)
    ensures m.Threw? <==> buttonHeld && (s.dragging.None? || !AtPosition(s.activeHandle))
    ensures m.Returned? ==> (!buttonHeld <==> m.value.FinishDrag?)
    ensures m.Returned? && m.value.Display? ==>
      m.value.width == DraggedWidth(s.dragging.value, clientX, cellMinWidth) && m.value.width >= cellMinWidth as real
  {
    if !buttonHeld then Returned(FinishDrag)
    else if s.dragging.None? || !AtPosition(s.activeHandle) then Threw
    else Returned(Display(DraggedWidth(s.dragging.value, clientX, cellMinWidth)))
  }

  /** A transaction carrying only the plugin meta `a`. */
  function MetaOnly(a: Action, mapping: int -> int, resolve: int -> ResolvedPos): Transaction {
    Transaction(Some(a), false, mapping, resolve)
  }

  /**
   * A full drag: from an armed handle and no drag, mousedown starts a drag
   * that keeps the handle; while it lasts hovering and leaving dispatch
   * nothing and a second mousedown is refused; mouse-up computes the floored
   * width, commits it when the handle's cell had its last width set, and
   * ends the drag with the handle still armed. The commit transaction that
   * `updateColumnWidth` dispatches before `setDragging: null` is the step
   * `CommitKeepsDrag` covers.
   */
  lemma {:induction false} DragLifecycle(
    s: ResizeState, t: Table, start: int, offsetWidth: int,
    x0: int, x1: int, cellMinWidth: int, hovered: int, lastColumnResizable: bool,
    mapping: int -> int, resolve: int -> ResolvedPos)
    requires s.activeHandle.Pos? && s.activeHandle.n > -1 && s.dragging.None?
    requires WellFormed(t) && s.activeHandle.n - start in t.tmap.slots
    requires hovered != -1 ==> WellFormed(t) && hovered - start in t.tmap.slots
    ensures var down := MouseDown(s, x0, t, start, offsetWidth);
      && down.Returned? && down.value.Some?
      && var s1 := Apply(s, MetaOnly(down.value.value, mapping, resolve));
      && s1.activeHandle == s.activeHandle && s1.dragging.Some? && s1.dragging.value.startX == x0
      && MouseMove(s1, hovered, lastColumnResizable, t, start).None?
      && MouseLeave(s1).None?
      && MouseDownRefuses(s1)
      && var f := Finish(s1, x1, cellMinWidth, t, start);
      && f.Returned? && f.value.Some?
      && f.value.value.width == DraggedWidth(s1.dragging.value, x1, cellMinWidth)
      && (LastWidthSet(t.cells[s.activeHandle.n - start].attrs) ==> f.value.value.commit.Some?)
      && Apply(s1, MetaOnly(f.value.value.action, mapping, resolve)) == ResizeState(s.activeHandle, None)
  {
    var down := MouseDown(s, x0, t, start, offsetWidth);
    assert !MouseDownRefuses(s);
    var s1 := Apply(s, MetaOnly(down.value.value, mapping, resolve));
    assert s1 == ResizeState(s.activeHandle, down.value.value.drag);
    if LastWidthSet(t.cells[s.activeHandle.n - start].attrs) {
      MouseDownFromSetWidth(s, x0, t, start, offsetWidth);
      DraggedWidthWhole(s1.dragging.value, x1, cellMinWidth);
    }
  }

  /**
   * The commit transaction between mouse-up and `setDragging: null` carries
   * no meta and changes the document. Its `setNodeMarkup` steps keep the
   * position before the handle's cell, which still points at a cell, so the
   * drag state comes through unchanged, and the following `setDragging: null`
   * leaves the handle armed.
   */
  lemma CommitKeepsDrag(s: ResizeState, commit: Transaction, mapping: int -> int, resolve: int -> ResolvedPos)
    requires s.activeHandle.Pos? && s.activeHandle.n > -1
    requires commit.meta.None? && commit.docChanged
    requires commit.mapping(s.activeHandle.n) == s.activeHandle.n
    requires PointsAtCell(commit.resolve(s.activeHandle.n))
    ensures Apply(s, commit) == s
    ensures Apply(Apply(s, commit), MetaOnly(SetDragging(None), mapping, resolve)) == ResizeState(s.activeHandle, None)
  {
  }

  /**
   * `decorations(state)`: the handle widgets while a handle is active,
   * drawn in the table `t` around it by the corrected `handleDecorations`.
   * A `null` handle passes the `> -1` test, and the table lookup then throws.
   */
  function DecorationsOf(s: ResizeState, t: Table, start: int): (ws: Outcome<seq<int>>)
    requires IsActive(s.activeHandle) && s.activeHandle.Pos? ==> WellFormed(t) && s.activeHandle.n - start in t.tmap.slots
    ensures ws.Threw? <==> s.activeHandle.NullHandle?
    ensures !IsActive(s.activeHandle) ==> ws == Returned([])
    ensures IsActive(s.activeHandle) && ws.Returned? ==> WidgetPos(t, start, s.activeHandle.n - start) in ws.value
  {
    match s.activeHandle
    case NullHandle => Threw
    case Pos(n) =>
      if n > -1 then
        HandleCellDecorated(t, start, n);
        Returned(HandleDecorations(t, start, n))
      else Returned([])
  }

  /*
   * A stale handle as the code keeps it. A transaction maps the handle 5 to
   * 7, where the new document has no cell after the position.
   */

  const NotAtCell: ResolvedPos := ResolvedPos(7, [Level(None, 0), Level(Some("paragraph"), 6)], true)

  function StaleMapping(pos: int): int {
    if pos == 5 then 7 else pos
  }

  function StaleResolve(pos: int): ResolvedPos {
    NotAtCell.(pos := pos)
  }

  const StaleEdit: Transaction := Transaction(None, true, StaleMapping, StaleResolve)

  /**
   * As written, the handle becomes `null`, which still reads as active:
   * the cursor class stays, and mousedown is not refused, although the
   * handle no longer names a cell; drawing the decorations and the mousedown
   * then throw. The corrected `Apply` turns the handle off, and both do
   * nothing.
   */
  lemma StaleHandleStaysArmed(t: Table, start: int, clientX: int, offsetWidth: int)
    ensures var s := ApplyAsWritten(ResizeState(Pos(5), None), StaleEdit);
      && s.activeHandle == NullHandle
      && !PointsAtCell(StaleEdit.resolve(HandleNumber(s.activeHandle)))
      && IsActive(s.activeHandle)
      && CursorClass(s) == Some("resize-cursor")
      && !MouseDownRefuses(s)
      && DecorationsOf(s, t, start).Threw?
      && MouseDown(s, clientX, t, start, offsetWidth).Threw?
    ensures var s := Apply(ResizeState(Pos(5), None), StaleEdit);
      && s.activeHandle == NoHandle
      && !IsActive(s.activeHandle)
      && CursorClass(s).None?
      && MouseDownRefuses(s)
      && DecorationsOf(s, t, start) == Returned([])
      && MouseDown(s, clientX, t, start, offsetWidth) == Returned(None)
  {
    assert !PointsAtCell(StaleResolve(7));
    assert !PointsAtCell(StaleResolve(0));
  }

  /**
   * The same edit during a drag. As written the state becomes `(null, drag)`:
   * mousedown and mouseleave are refused, and mouse-up's `finish`, having
   * removed both listeners, throws in `updateColumnWidth` before it ends the
   * drag, so the drag is never ended. Resetting only the handle to `-1` would
   * throw there too, in `doc.resolve(-1)`. The corrected `Apply` ends the
   * drag as well: mouse-up then finishes without a commit. A pointer move
   * with the button still held throws in `draggedWidth` on the missing drag.
   */
  lemma StaleHandleDuringDrag(d: Drag, t: Table, start: int, clientX: int, cellMinWidth: int)
    ensures var s := ApplyAsWritten(ResizeState(Pos(5), Some(d)), StaleEdit);
      && s == ResizeState(NullHandle, Some(d))
      && MouseDownRefuses(s)
      && MouseLeave(s).None?
      && Move(s, true, clientX, cellMinWidth).Threw?
      && Finish(s, clientX, cellMinWidth, t, start).Threw?
    ensures Finish(ResizeState(NoHandle, Some(d)), clientX, cellMinWidth, t, start).Threw?
    ensures var s := Apply(ResizeState(Pos(5), Some(d)), StaleEdit);
      && s == InitialState
      && Finish(s, clientX, cellMinWidth, t, start) == Returned(None)
      && Move(s, false, clientX, cellMinWidth) == Returned(FinishDrag)
      && Move(s, true, clientX, cellMinWidth).Threw?
  {
    assert !PointsAtCell(StaleResolve(7));
  }
}

=== FILE: table_grid.dfy ===
/**
 * The grid geometry of a table: the abstract `TableMap` (`width`, `height`
 * and the slot-to-cell-offset array) together with the table's cells.
 *
 * `TableMap` construction is not part of this model. Its result is instead
 * characterised by `WellFormed`: every slot names a cell, and the slots
 * naming a cell are exactly the `rowspan` x `colspan` rectangle anchored at
 * the cell's first slot. `colCount(pos)` is that first slot's index modulo
 * `width`, which is how `TableMap.colCount` finds a cell's column.
 */
module TableGrid {
  import opened Wrappers
  import opened CellAttrsCodec

  /** A cell node: its attributes and its `nodeSize`. */
  datatype Cell = Cell(attrs: CellAttrs, nodeSize: nat)

  /** `TableMap.get(table)`: `slots[row * width + col]` is the offset of the cell covering that slot. */
  datatype TableMap = TableMap(width: nat, height: nat, slots: seq<int>)

  /** A table: its map and `table.nodeAt(offset)` for every cell offset. */
  datatype Table = Table(tmap: TableMap, cells: map<int, Cell>)

  /** `width * height` slots, each holding the non-negative offset of a cell of the table. */
  predicate Shaped(t: Table) {
    && t.tmap.width > 0
    && t.tmap.height > 0
    && |t.tmap.slots| == t.tmap.width * t.tmap.height
    && forall i | 0 <= i < |t.tmap.slots| :: t.tmap.slots[i] in t.cells && t.tmap.slots[i] >= 0
  }

  lemma MulMono(a: int, b: int, w: int)
    requires 0 <= a <= b && 0 <= w
    ensures a * w <= b * w
  {
  }

  lemma SlotIndexInRange(w: nat, h: nat, r: int, c: int)
    requires 0 <= r < h && 0 <= c < w
    ensures 0 <= r * w + c < w * h
  {
    MulMono(r, h - 1, w);
    assert (h - 1) * w == w * h - w;
  }

  /** The offset of the cell at row `r`, column `c`. */
  function Slot(t: Table, r: int, c: int): (p: int)
    requires Shaped(t)
    requires 0 <= r < t.tmap.height && 0 <= c < t.tmap.width
    ensures p in t.cells && p in t.tmap.slots && p >= 0
  {
    SlotIndexInRange(t.tmap.width, t.tmap.height, r, c);
    t.tmap.slots[r * t.tmap.width + c]
  }

  /** `map.indexOf(p)`: the first slot holding `p`. */
  function FirstIndex(s: seq<int>, p: int): (i: nat)
    requires p in s
    ensures i < |s| && s[i] == p
    ensures forall j | 0 <= j < i :: s[j] != p
  {
    if s[0] == p then 0 else 1 + FirstIndex(s[1..], p)
  }

  /** The first slot holding `p` is the one before which no slot holds it. */
  lemma FirstIndexIs(s: seq<int>, p: int, i: int)
    requires 0 <= i < |s| && s[i] == p
    requires forall j | 0 <= j < i :: s[j] != p
    ensures FirstIndex(s, p) == i
  {
    var k := FirstIndex(s, p);
    assert !(k < i) && !(i < k);
  }

  /** `map.colCount(p)`: the column of the cell's first slot. */
  function ColCount(t: Table, p: int): int
    requires Shaped(t) && p in t.tmap.slots
  {
    FirstIndex(t.tmap.slots, p) % t.tmap.width
  }

  /** The row of the cell's first slot. */
  function TopRow(t: Table, p: int): int
    requires Shaped(t) && p in t.tmap.slots
  {
    FirstIndex(t.tmap.slots, p) / t.tmap.width
  }

  lemma DivBelow(i: int, w: int, h: int)
    requires 0 <= i < w * h && w > 0
    ensures 0 <= i / w < h
  {
    var q := i / w;
    assert w * q <= i;
    if q >= h {
      MulMono(h, q, w);
    }
  }

  /** The first slot of a cell is at row `TopRow` and column `ColCount`. */
  lemma FirstSlot(t: Table, p: int)
    requires Shaped(t) && p in t.tmap.slots
    ensures 0 <= TopRow(t, p) < t.tmap.height
    ensures 0 <= ColCount(t, p) < t.tmap.width
    ensures Slot(t, TopRow(t, p), ColCount(t, p)) == p
  {
    var i := FirstIndex(t.tmap.slots, p);
    DivBelow(i, t.tmap.width, t.tmap.height);
    assert TopRow(t, p) * t.tmap.width + ColCount(t, p) == i;
  }

  /** A cell node's spans are positive and its width list, when present, has one entry per column. */
  predicate CellValid(a: CellAttrs) {
    && a.colspan >= 1
    && a.rowspan >= 1
    && (a.colwidth.Some? ==> |a.colwidth.value| == a.colspan)
  }

  /** The slots holding `p` are exactly its span rectangle, which lies inside the grid. */
  predicate Covers(t: Table, p: int)
    requires Shaped(t) && p in t.tmap.slots
  {
    && p in t.cells
    && var top := TopRow(t, p);
    && var left := ColCount(t, p);
    && var a := t.cells[p].attrs;
    && top + a.rowspan <= t.tmap.height
    && left + a.colspan <= t.tmap.width
    && forall r, c | 0 <= r < t.tmap.height && 0 <= c < t.tmap.width ::
         Slot(t, r, c) == p <==> (top <= r < top + a.rowspan && left <= c < left + a.colspan)
  }

  /** The cell in slot `i` covers exactly its span rectangle. */
  predicate CoversAt(t: Table, i: int)
    requires Shaped(t) && 0 <= i < |t.tmap.slots|
  {
    Covers(t, t.tmap.slots[i])
  }

  /** The well-formedness assumed of every table map. */
  predicate WellFormed(t: Table) {
    && Shaped(t)
    && (forall p | p in t.cells :: CellValid(t.cells[p].attrs))
    && (forall i | 0 <= i < |t.tmap.slots| :: CoversAt(t, i))
  }

  lemma CoversOf(t: Table, p: int)
    requires WellFormed(t) && p in t.tmap.slots
    ensures Covers(t, p)
  {
    var i := FirstIndex(t.tmap.slots, p);
    assert CoversAt(t, i);
  }

  /** The cell at `(r, c)` spans a rectangle containing `(r, c)`. */
  lemma SlotInSpan(t: Table, r: int, c: int)
    requires WellFormed(t)
    requires 0 <= r < t.tmap.height && 0 <= c < t.tmap.width
    ensures var p := Slot(t, r, c);
      var a := t.cells[p].attrs;
      && CellValid(a)
      && TopRow(t, p) <= r < TopRow(t, p) + a.rowspan
      && ColCount(t, p) <= c < ColCount(t, p) + a.colspan
      && TopRow(t, p) + a.rowspan <= t.tmap.height
      && ColCount(t, p) + a.colspan <= t.tmap.width
  {
    CoversOf(t, Slot(t, r, c));
  }

  /** Every slot in a cell's span rectangle holds that cell. */
  lemma SpanInSlot(t: Table, p: int, r: int, c: int)
    requires WellFormed(t) && p in t.tmap.slots
    requires 0 <= r < t.tmap.height && 0 <= c < t.tmap.width
    ensures p in t.cells
    ensures Slot(t, r, c) == p <==>
      (TopRow(t, p) <= r < TopRow(t, p) + t.cells[p].attrs.rowspan
       && ColCount(t, p) <= c < ColCount(t, p) + t.cells[p].attrs.colspan)
  {
    CoversOf(t, p);
  }

  /** The last grid column a cell covers: `colCount(pos) + colspan - 1`. */
  function LastColumn(t: Table, p: int): (col: int)
    requires WellFormed(t) && p in t.tmap.slots
    ensures 0 <= col < t.tmap.width
    ensures ColCount(t, p) <= col
  {
    CoversOf(t, p);
    FirstSlot(t, p);
    ColCount(t, p) + t.cells[p].attrs.colspan - 1
  }

  /** Two tables with the same map and the same spans have the same geometry. */
  predicate SameGeometry(t: Table, t': Table) {
    && t'.tmap == t.tmap
    && t'.cells.Keys == t.cells.Keys
    && forall p | p in t.cells ::
         t'.cells[p].attrs.colspan == t.cells[p].attrs.colspan
         && t'.cells[p].attrs.rowspan == t.cells[p].attrs.rowspan
  }

  /** Changing only width lists keeps a table well formed and every grid query unchanged. */
  lemma GeometryPreserved(t: Table, t': Table)
    requires WellFormed(t) && SameGeometry(t, t')
    requires forall p | p in t'.cells :: CellValid(t'.cells[p].attrs)
    ensures WellFormed(t')
    ensures forall r, c | 0 <= r < t.tmap.height && 0 <= c < t.tmap.width :: Slot(t', r, c) == Slot(t, r, c)
    ensures forall p | p in t.tmap.slots :: TopRow(t', p) == TopRow(t, p) && ColCount(t', p) == ColCount(t, p)
  {
    forall i | 0 <= i < |t'.tmap.slots| ensures CoversAt(t', i) {
      assert CoversAt(t, i);
      assert forall r, c | 0 <= r < t.tmap.height && 0 <= c < t.tmap.width :: Slot(t', r, c) == Slot(t, r, c);
    }
  }
}

=== FILE: table_nodes.dfy ===
/**
 * Building a fresh table: `tableNodeTypes` (the role → node-type lookup a
 * schema caches), `createCell` and `createTable`.
 *
 * A schema is its node types in declaration order plus its cache slot. A
 * node is an element of some type with children, a text node, or the
 * default node `createAndFill` builds for a type (its content is decided by
 * the schema's content expressions, which are not part of this model).
 */
module TableNodes {
  import opened Wrappers

  /** A node type: its name in `schema.nodes` and its `spec.tableRole`. */
  datatype NodeType = NodeType(name: string, tableRole: Option<string>)

  /** The role → type record, as cached in `schema.cached.tableNodeTypes`. */
  type Roles = map<string, NodeType>

  datatype Schema = Schema(nodes: seq<NodeType>, cached: Option<Roles>)

  datatype Node =
    | Element(nodeType: NodeType, content: seq<Node>)
    | Text(text: string)
    | Filled(filledType: NodeType)

  /** A `tableRole` that is present and truthy (not the empty string). */
  predicate HasRole(t: NodeType) {
    t.tableRole.Some? && t.tableRole.value != ""
  }

  /** The loop over `schema.nodes`: each type with a role is stored under it, so a later type wins. */
  function RoleMap(nodes: seq<NodeType>): (m: Roles)
    ensures forall r | r in m :: r != "" && HasRole(m[r]) && m[r].tableRole.value == r && m[r] in nodes
    decreases |nodes|
  {
    if |nodes| == 0 then map[]
    else
      var t := nodes[|nodes| - 1];
      var m := RoleMap(nodes[..|nodes| - 1]);
      if HasRole(t) then m[t.tableRole.value := t] else m
  }

  /** The last type in `nodes` whose role is `r`. */
  predicate LastWithRole(nodes: seq<NodeType>, r: string, i: int) {
    0 <= i < |nodes| && nodes[i].tableRole == Some(r)
    && forall j | i < j < |nodes| :: nodes[j].tableRole != Some(r)
  }

  /**
   * Every non-empty role that some type declares is in the map, and it maps
   * to the last type declaring it; no other key is present.
   */
  lemma {:induction false} RoleMapSpec(nodes: seq<NodeType>, r: string)
    requires r != ""
    ensures r in RoleMap(nodes) <==> exists i | 0 <= i < |nodes| :: nodes[i].tableRole == Some(r)
    ensures r in RoleMap(nodes) ==> exists i :: LastWithRole(nodes, r, i) && RoleMap(nodes)[r] == nodes[i]
    decreases |nodes|
  {
    if |nodes| > 0 {
      var n := |nodes| - 1;
      var prefix := nodes[..n];
      RoleMapSpec(prefix, r);
      assert forall i | 0 <= i < n :: prefix[i] == nodes[i];
      if nodes[n].tableRole == Some(r) {
        assert LastWithRole(nodes, r, n);
      } else if r in RoleMap(prefix) {
        var i :| LastWithRole(prefix, r, i) && RoleMap(prefix)[r] == prefix[i];
        assert LastWithRole(nodes, r, i);
      }
    }
  }

  /**
   * `tableNodeTypes(schema)`: the cached record when there is one, otherwise
   * the freshly built record, which is also stored in the cache. Returns the
   * record and the schema afterwards.
   */
  function TableNodeTypes(schema: Schema): (r: (Roles, Schema))
    ensures r.1.nodes == schema.nodes
    ensures r.1.cached == Some(r.0)
    ensures schema.cached.Some? ==> r == (schema.cached.value, schema)
    ensures schema.cached.None? ==> r.0 == RoleMap(schema.nodes)
    ensures schema.cached.None? ==> forall role | role in r.0 :: r.0[role].tableRole == Some(role) && r.0[role] in schema.nodes
  {
    match schema.cached
    case Some(roles) => (roles, schema)
    case None =>
      var roles := RoleMap(schema.nodes);
      (roles, schema.(cached := Some(roles)))
  }

  /**
   * On a schema without a cached record, a non-empty role is found exactly
   * when some node type declares it, and it names the last such type.
   */
  lemma TableNodeTypesFresh(schema: Schema, role: string)
    requires schema.cached.None? && role != ""
    ensures var roles := TableNodeTypes(schema).0;
      && (role in roles <==> exists i | 0 <= i < |schema.nodes| :: schema.nodes[i].tableRole == Some(role))
      && (role in roles ==> exists i :: LastWithRole(schema.nodes, role, i) && roles[role] == schema.nodes[i])
  {
    RoleMapSpec(schema.nodes, role);
  }

  /** Once the lookup has run, the cache answers: a second call returns the same record and changes nothing. */
  lemma TableNodeTypesCached(schema: Schema)
    ensures var (roles, s1) := TableNodeTypes(schema);
      TableNodeTypes(s1) == (roles, s1)
  {
  }

  /**
   * `createCell(cellType, cellContent, cellHasWidth)`: the given content in a
   * checked node of the cell type; otherwise the given ready-made node;
   * otherwise the type's default node. Any present content counts, even an
   * empty fragment.
   */
  function CreateCell(cellType: NodeType, cellContent: Option<seq<Node>>, cellHasWidth: Option<Node>): (n: Node)
    ensures cellContent.Some? ==> n == Element(cellType, cellContent.value)
    ensures cellContent.None? && cellHasWidth.Some? ==> n == cellHasWidth.value
    ensures cellContent.None? && cellHasWidth.None? ==> n == Filled(cellType)
  {
    if cellContent.Some? then Element(cellType, cellContent.value)
    else if cellHasWidth.Some? then cellHasWidth.value
    else Filled(cellType)
  }

  /** The placeholder text of a header cell, `列宽<305>`. */
  const Placeholder: string := "\U{5217}\U{5BBD}<305>"

  /** The type named `name` in `schema.nodes`, if any. */
  function NodeNamed(nodes: seq<NodeType>, name: string): (r: Option<NodeType>)
    ensures r.Some? ==> r.value in nodes && r.value.name == name
    ensures r.None? ==> forall i | 0 <= i < |nodes| :: nodes[i].name != name
  {
    if |nodes| == 0 then None
    else if nodes[0].name == name then Some(nodes[0])
    else NodeNamed(nodes[1..], name)
  }

  /**
   * The record entries `createTable` dereferences: an absent one is
   * `undefined` and the first method call on it throws. `table` is always
   * used; `row` only when some row is built; `cell` only when some column is;
   * `header_cell` and the `paragraph` type only when a header row of at
   * least one column is built.
   */
  predicate CanBuild(roles: Roles, nodes: seq<NodeType>, rowsCount: int, colsCount: int, withHeaderRow: bool) {
    && "table" in roles
    && (rowsCount > 0 ==> "row" in roles)
    && (colsCount > 0 ==> "cell" in roles)
    && (colsCount > 0 && withHeaderRow ==> "header_cell" in roles && NodeNamed(nodes, "paragraph").Some?)
  }

  /** The header cell `createTable` builds: the given content, or the placeholder paragraph. */
  function HeaderCell(header: NodeType, paragraph: NodeType, cellContent: Option<seq<Node>>): Node {
    CreateCell(header, cellContent, Some(Element(header, [Element(paragraph, [Text(Placeholder)])])))
  }

  /** `n` copies of `x`: what pushing the same value `n` times builds. */
  function Repeat<T>(x: T, n: int): (r: seq<T>)
    ensures |r| == if n > 0 then n else 0
    ensures forall i | 0 <= i < |r| :: r[i] == x
  {
    seq(if n > 0 then n else 0, _ => x)
  }

  /**
   * `createTable(schema, rowsCount = 3, colsCount = 3, withHeaderRow = true,
   * cellContent = null)`: the table node, or `None` when the code throws on
   * a missing node type; also the schema with its role record cached.
   * Row `0` holds the header cells when `withHeaderRow`, every other row the
   * body cells. A count below 1 builds nothing of that kind.
   */
  function CreateTable(schema: Schema, rowsCount: int := 3, colsCount: int := 3, withHeaderRow: bool := true,
                       cellContent: Option<seq<Node>> := None): (r: (Option<Node>, Schema))
    ensures r.1 == TableNodeTypes(schema).1
    ensures r.0.Some? <==> CanBuild(TableNodeTypes(schema).0, schema.nodes, rowsCount, colsCount, withHeaderRow)
    ensures r.0.Some? ==> r.0.value.Element? && r.0.value.nodeType == TableNodeTypes(schema).0["table"]
  {
    var (roles, schema') := TableNodeTypes(schema);
    if !CanBuild(roles, schema.nodes, rowsCount, colsCount, withHeaderRow) then (None, schema')
    else
      var dummy := NodeType("", None);
      var cell := if "cell" in roles then roles["cell"] else dummy;
      var header := if "header_cell" in roles then roles["header_cell"] else dummy;
      var row := if "row" in roles then roles["row"] else dummy;
      var paragraph := NodeNamed(schema.nodes, "paragraph").GetOr(dummy);
      var cells := Repeat(CreateCell(cell, cellContent, None), colsCount);
      var headerCells := if withHeaderRow then Repeat(HeaderCell(header, paragraph, cellContent), colsCount) else [];
      var rows := seq(if rowsCount > 0 then rowsCount else 0,
                      i => Element(row, if withHeaderRow && i == 0 then headerCells else cells));
      (Some(Element(roles["table"], rows)), schema')
  }

  /** The expected content of row `i` of a table built with these arguments. */
  predicate RowShape(roles: Roles, nodes: seq<NodeType>, r: Node, i: int, colsCount: int, withHeaderRow: bool,
                     cellContent: Option<seq<Node>>)
    requires "row" in roles
  {
    && r.Element?
    && r.nodeType == roles["row"]
    && |r.content| == (if colsCount > 0 then colsCount else 0)
    && forall j | 0 <= j < |r.content| ::
         if withHeaderRow && i == 0 then
           "header_cell" in roles && NodeNamed(nodes, "paragraph").Some?
           && r.content[j] == HeaderCell(roles["header_cell"], NodeNamed(nodes, "paragraph").value, cellContent)
         else
           "cell" in roles && r.content[j] == CreateCell(roles["cell"], cellContent, None)
  }

  /**
   * The shape of a built table: exactly `rowsCount` rows of exactly
   * `colsCount` cells, header cells in row 0 exactly when `withHeaderRow`.
   */
  lemma CreateTableShape(schema: Schema, rowsCount: int, colsCount: int, withHeaderRow: bool, cellContent: Option<seq<Node>>)
    requires CreateTable(schema, rowsCount, colsCount, withHeaderRow, cellContent).0.Some?
    ensures var t := CreateTable(schema, rowsCount, colsCount, withHeaderRow, cellContent).0.value;
      var roles := TableNodeTypes(schema).0;
      && |t.content| == (if rowsCount > 0 then rowsCount else 0)
      && (rowsCount > 0 ==> "row" in roles)
      && forall i | 0 <= i < |t.content| ::
           "row" in roles && RowShape(roles, schema.nodes, t.content[i], i, colsCount, withHeaderRow, cellContent)
  {
  }

  /** Without given content, every header cell is one paragraph holding the placeholder text. */
  lemma HeaderCellPlaceholder(header: NodeType, paragraph: NodeType)
    ensures HeaderCell(header, paragraph, None) == Element(header, [Element(paragraph, [Text(Placeholder)])])
  {
  }

  /** A schema declaring the four table roles and a paragraph type. */
  predicate FullTableSchema(schema: Schema) {
    var roles := TableNodeTypes(schema).0;
    "table" in roles && "row" in roles && "cell" in roles && "header_cell" in roles
    && NodeNamed(schema.nodes, "paragraph").Some?
  }

  /** The defaults build three rows of three cells, the first row of placeholder header cells. */
  lemma {:induction false} CreateTableDefaults(schema: Schema)
    requires FullTableSchema(schema)
    ensures var t := CreateTable(schema).0;
      var roles := TableNodeTypes(schema).0;
      && t.Some? && |t.value.content| == 3
      && (forall i | 0 <= i < 3 :: |t.value.content[i].content| == 3)
      && t.value.content[0].content[0]
           == Element(roles["header_cell"], [Element(NodeNamed(schema.nodes, "paragraph").value, [Text(Placeholder)])])
      && t.value.content[1].content[0] == Filled(roles["cell"])
  {
    CreateTableShape(schema, 3, 3, true, None);
    var t := CreateTable(schema).0.value;
    var roles := TableNodeTypes(schema).0;
    assert RowShape(roles, schema.nodes, t.content[0], 0, 3, true, None);
    assert RowShape(roles, schema.nodes, t.content[1], 1, 3, true, None);
  }
}

=== FILE: width_commit.dfy ===
/**
 * Committing a dragged column width to the document: the drag arithmetic
 * (`draggedWidth`), the starting width of a drag (`currentColWidth`), and
 * `updateColumnWidth`, which turns "column `col` is now `width` pixels" into
 * one `setNodeMarkup` per physical cell, bundled in a single transaction.
 */
module WidthCommit {
  import opened Wrappers
  import opened CellAttrsCodec
  import opened TableGrid
  import opened OptionSeq

  /** The `dragging` record of the plugin state: pointer origin and the width the drag started from. */
  datatype Drag = Drag(startX: int, startWidth: real)

  /** `draggedWidth`: the start width moved by the pointer offset, floored at `cellMinWidth`. */
  function DraggedWidth(d: Drag, clientX: int, cellMinWidth: int): (w: real)
    ensures w >= cellMinWidth as real
    ensures w == cellMinWidth as real || w == d.startWidth + (clientX - d.startX) as real
    ensures w >= d.startWidth + (clientX - d.startX) as real
  {
    var offset := clientX - d.startX;
    if cellMinWidth as real > d.startWidth + offset as real then cellMinWidth as real
    else d.startWidth + offset as real
  }

  /** The sum of the entries of `ws`. */
  function Total(ws: seq<int>): int
    decreases |ws|
  {
    if |ws| == 0 then 0 else Total(ws[..|ws| - 1]) + ws[|ws| - 1]
  }

  /** The columns among the first `n` whose width entry is set (non-zero). */
  function SetColumns(ws: seq<int>, n: nat): set<nat> {
    set i: nat | i < n && i < |ws| && ws[i] != 0
  }

  /** The entries of `ws` the first `n` columns read; the rest are `undefined`. */
  function Read(ws: seq<int>, n: nat): seq<int> {
    if n < |ws| then ws[..n] else ws
  }

  /**
   * The loop of `currentColWidth` over the first `n` columns of a cell: the
   * total of the width entries that are set (non-zero) and how many there are.
   * Entries past the end of the list read as `undefined` and count as unset.
   * Unset entries add nothing, so the total is that of every entry read.
   */
  function KnownWidths(ws: seq<int>, n: nat): (r: (int, nat))
    ensures r.0 == Total(Read(ws, n))
    ensures r.1 == |SetColumns(ws, n)| && r.1 <= n
    decreases n
  {
    if n == 0 then
      assert SetColumns(ws, n) == {};
      (0, 0)
    else
      var prev := KnownWidths(ws, n - 1);
      assert n - 1 !in SetColumns(ws, n - 1);
      if n - 1 < |ws| then
        assert Read(ws, n)[..n - 1] == Read(ws, n - 1);
        if ws[n - 1] != 0 then
          assert SetColumns(ws, n) == SetColumns(ws, n - 1) + {n - 1};
          (prev.0 + ws[n - 1], prev.1 + 1)
        else
          assert SetColumns(ws, n) == SetColumns(ws, n - 1);
          prev
      else
        assert SetColumns(ws, n) == SetColumns(ws, n - 1);
        prev
  }

  /** A zero entry among the first `n` keeps the count of set entries below `n`. */
  lemma {:induction false} KnownWidthsBelow(ws: seq<int>, n: nat, i: nat)
    requires i < n && i < |ws| && ws[i] == 0
    ensures KnownWidths(ws, n).1 < n
    decreases n
  {
    if i < n - 1 {
      KnownWidthsBelow(ws, n - 1, i);
    }
  }

  /**
   * `currentColWidth`: the last entry of `colwidth` when it is set and
   * non-zero; otherwise the rendered width of the cell (`offsetWidth`, which
   * the caller supplies) less the set entries, shared among the columns whose
   * entry is unset. The division is `None` when no column is unset, where
   * JavaScript would divide by zero.
   */
  function CurrentColWidth(a: CellAttrs, offsetWidth: int): (w: Option<real>)
    ensures LastWidthSet(a) ==> w == Some(a.colwidth.value[|a.colwidth.value| - 1] as real)
    ensures a.colwidth.Some? && !LastWidthSet(a) ==>
      var ws := a.colwidth.value;
      var parts := a.colspan - |SetColumns(ws, a.colspan)|;
      && (w.None? <==> parts == 0)
      && (parts != 0 ==> w == Some((offsetWidth - Total(Read(ws, a.colspan))) as real / parts as real))
    ensures a.colwidth.None? ==> (w.None? <==> a.colspan == 0)
    ensures a.colwidth.None? && a.colspan > 0 ==> w == Some(offsetWidth as real / a.colspan as real)
  {
    match a.colwidth
    case Some(ws) =>
      if |ws| > 0 && ws[|ws| - 1] != 0 then Some(ws[|ws| - 1] as real)
      else
        var known := KnownWidths(ws, a.colspan);
        var parts := a.colspan - known.1;
        if parts == 0 then None else Some((offsetWidth - known.0) as real / parts as real)
    case None =>
      if a.colspan == 0 then None else Some(offsetWidth as real / a.colspan as real)
  }

  /** The last `colwidth` entry is set and non-zero, the first branch of `currentColWidth`. */
  predicate LastWidthSet(a: CellAttrs) {
    a.colwidth.Some? && |a.colwidth.value| > 0 && a.colwidth.value[|a.colwidth.value| - 1] != 0
  }

  /**
   * A two-column cell whose first column was committed (`[w, 0]`, as
   * `updateColumnWidth` leaves it) starts a drag of its last column from the
   * rendered width less `w`.
   */
  lemma CurrentColWidthAfterPartialCommit(w: int, offsetWidth: int)
    requires w != 0
    ensures CurrentColWidth(CellAttrs(2, 1, Some([w, 0])), offsetWidth) == Some((offsetWidth - w) as real)
  {
    assert SetColumns([w, 0], 2) == {0};
    assert [w, 0][..1] == [w] && [w][..0] == [];
    assert Total([w]) == w;
    assert Total([w, 0]) == w;
    assert |SetColumns([w, 0], 2)| == 1;
    var a := CellAttrs(2, 1, Some([w, 0]));
    assert !LastWidthSet(a);
    assert Read(a.colwidth.value, a.colspan) == [w, 0];
    assert (offsetWidth - w) as real / 1 as real == (offsetWidth - w) as real;
  }

  /** For a valid cell the fallback always has an unset column to share the width among. */
  lemma CurrentColWidthDefined(a: CellAttrs, offsetWidth: int)
    requires CellValid(a)
    ensures CurrentColWidth(a, offsetWidth).Some?
  {
    if a.colwidth.Some? {
      var ws := a.colwidth.value;
      if ws[|ws| - 1] == 0 {
        KnownWidthsBelow(ws, a.colspan, |ws| - 1);
      }
    }
  }

  /** `zeroes(n)`: a width list with `n` unset (zero) entries. */
  function Zeroes(n: nat): (r: seq<int>)
    ensures |r| == n
    ensures forall i | 0 <= i < n :: r[i] == 0
  {
    if n == 0 then [] else Zeroes(n - 1) + [0]
  }

  /** `tr.setNodeMarkup(pos, null, attrs)` */
  datatype Update = Update(pos: int, attrs: CellAttrs)

  /** `attrs.colwidth && attrs.colwidth[index] == width` */
  predicate HasWidthAt(a: CellAttrs, index: int, width: int) {
    a.colwidth.Some? && 0 <= index < |a.colwidth.value| && a.colwidth.value[index] == width
  }

  /** The position of grid column `col` inside the cell `p`'s width list. */
  function LocalIndex(t: Table, p: int, col: int): int
    requires Shaped(t) && p in t.tmap.slots && p in t.cells
  {
    if t.cells[p].attrs.colspan == 1 then 0 else col - ColCount(t, p)
  }

  lemma LocalIndexInRange(t: Table, r: int, col: int)
    requires WellFormed(t)
    requires 0 <= r < t.tmap.height && 0 <= col < t.tmap.width
    ensures var p := Slot(t, r, col);
      0 <= LocalIndex(t, p, col) < t.cells[p].attrs.colspan
  {
    SlotInSpan(t, r, col);
  }

  /**
   * The copy-on-write width update: a copy of `colwidth` (or `zeroes(colspan)`
   * when unset) with entry `index` set to `width`, stored with `setAttr`.
   */
  function WithWidthAt(a: CellAttrs, index: int, width: int): (b: CellAttrs)
    requires CellValid(a) && 0 <= index < a.colspan
    ensures CellValid(b)
    ensures b.colspan == a.colspan && b.rowspan == a.rowspan
    ensures HasWidthAt(b, index, width)
    ensures forall k | 0 <= k < a.colspan && k != index ::
      b.colwidth.value[k] == (if a.colwidth.Some? then a.colwidth.value[k] else 0)
  {
    var base := if a.colwidth.Some? then a.colwidth.value else Zeroes(a.colspan);
    a.(colwidth := Some(base[index := width]))
  }

  /** One iteration of the row loop of `updateColumnWidth`, with offsets relative to the table start. */
  function RowUpdate(t: Table, col: int, width: int, r: int): Option<Update>
    requires WellFormed(t)
    requires 0 <= r < t.tmap.height && 0 <= col < t.tmap.width
  {
    var p := Slot(t, r, col);
    if r > 0 && Slot(t, r - 1, col) == p then None  // a rowspanning cell already handled
    else
      var a := t.cells[p].attrs;
      var index := LocalIndex(t, p, col);
      LocalIndexInRange(t, r, col);
      if HasWidthAt(a, index, width) then None
      else Some(Update(p, WithWidthAt(a, index, width)))
  }

  /** What each row of the row loop contributes, row by row. */
  function RowUpdates(t: Table, col: int, width: int): (os: seq<Option<Update>>)
    requires WellFormed(t) && 0 <= col < t.tmap.width
    ensures |os| == t.tmap.height
    ensures forall r | 0 <= r < t.tmap.height :: os[r] == RowUpdate(t, col, width, r)
  {
    seq(t.tmap.height, r requires 0 <= r < t.tmap.height => RowUpdate(t, col, width, r))
  }

  /** The updates the row loop collects, in row order. */
  function ColumnUpdates(t: Table, col: int, width: int): seq<Update>
    requires WellFormed(t) && 0 <= col < t.tmap.width
  {
    Somes(RowUpdates(t, col, width))
  }

  /** What an update for the cell `p` in column `col` is: its width entry set, nothing else changed. */
  predicate IsColumnUpdate(t: Table, col: int, width: int, u: Update)
    requires WellFormed(t) && 0 <= col < t.tmap.width
  {
    && u.pos in t.tmap.slots
    && u.pos in t.cells
    && ColCount(t, u.pos) <= col < ColCount(t, u.pos) + t.cells[u.pos].attrs.colspan
    && 0 <= LocalIndex(t, u.pos, col) < t.cells[u.pos].attrs.colspan
    && !HasWidthAt(t.cells[u.pos].attrs, LocalIndex(t, u.pos, col), width)
    && u.attrs == WithWidthAt(t.cells[u.pos].attrs, LocalIndex(t, u.pos, col), width)
  }

  /** A row contributes an update exactly at the top row of its cell, and only if the width differs. */
  lemma RowUpdateSpec(t: Table, col: int, width: int, r: int)
    requires WellFormed(t)
    requires 0 <= r < t.tmap.height && 0 <= col < t.tmap.width
    ensures var p := Slot(t, r, col);
      RowUpdate(t, col, width, r).Some? <==>
        (r == TopRow(t, p) && !HasWidthAt(t.cells[p].attrs, LocalIndex(t, p, col), width))
    ensures RowUpdate(t, col, width, r).Some? ==>
      var u := RowUpdate(t, col, width, r).value;
      u.pos == Slot(t, r, col) && IsColumnUpdate(t, col, width, u)
  {
    var p := Slot(t, r, col);
    SlotInSpan(t, r, col);
    FirstSlot(t, p);
    LocalIndexInRange(t, r, col);
    if r > 0 {
      SpanInSlot(t, p, r - 1, col);
    }
  }

  /** Each collected update is a proper column update, made in the top row of its cell. */
  lemma UpdatesSound(t: Table, col: int, width: int)
    requires WellFormed(t) && 0 <= col < t.tmap.width
    ensures var us := ColumnUpdates(t, col, width);
      forall k | 0 <= k < |us| ::
        && IsColumnUpdate(t, col, width, us[k])
        && TopRow(t, us[k].pos) == SourceIndex(RowUpdates(t, col, width), k)
  {
    var os := RowUpdates(t, col, width);
    var us := ColumnUpdates(t, col, width);
    forall k | 0 <= k < |us|
      ensures IsColumnUpdate(t, col, width, us[k]) && TopRow(t, us[k].pos) == SourceIndex(os, k)
    {
      var r := SourceIndex(os, k);
      RowUpdateSpec(t, col, width, r);
    }
  }

  /** Every physical cell gets at most one update. */
  lemma UpdatesDistinct(t: Table, col: int, width: int)
    requires WellFormed(t) && 0 <= col < t.tmap.width
    ensures var us := ColumnUpdates(t, col, width);
      forall i, j | 0 <= i < j < |us| :: us[i].pos != us[j].pos
  {
    var os := RowUpdates(t, col, width);
    var us := ColumnUpdates(t, col, width);
    UpdatesSound(t, col, width);
    forall i, j | 0 <= i < j < |us| ensures us[i].pos != us[j].pos {
      SourceIndexIncreasing(os, i, j);
    }
  }

  /** The cell in row `r` of column `col` is updated exactly when it lacks the width. */
  lemma UpdatedAt(t: Table, col: int, width: int, r: int)
    requires WellFormed(t) && 0 <= col < t.tmap.width && 0 <= r < t.tmap.height
    ensures var us := ColumnUpdates(t, col, width);
      var p := Slot(t, r, col);
      (exists k | 0 <= k < |us| :: us[k].pos == p) <==>
        !HasWidthAt(t.cells[p].attrs, LocalIndex(t, p, col), width)
  {
    var os := RowUpdates(t, col, width);
    var us := ColumnUpdates(t, col, width);
    var p := Slot(t, r, col);
    FirstSlot(t, p);
    if exists k | 0 <= k < |us| :: us[k].pos == p {
      var k :| 0 <= k < |us| && us[k].pos == p;
      UpdatesSound(t, col, width);
      assert IsColumnUpdate(t, col, width, us[k]);
    } else if !HasWidthAt(t.cells[p].attrs, LocalIndex(t, p, col), width) {
      var top := TopRow(t, p);
      SlotInSpan(t, r, col);
      SpanInSlot(t, p, top, col);
      RowUpdateSpec(t, col, width, top);
      SomesComplete(os, top);
      assert false;
    }
  }

  /**
   * A cell covering column `col` is updated exactly when its width entry for
   * that column is not already `width`; every update is such a cell's
   * copy-on-write width update.
   */
  lemma UpdatesComplete(t: Table, col: int, width: int)
    requires WellFormed(t) && 0 <= col < t.tmap.width
    ensures var us := ColumnUpdates(t, col, width);
      && (forall k | 0 <= k < |us| :: IsColumnUpdate(t, col, width, us[k]))
      && (forall r | 0 <= r < t.tmap.height ::
            var p := Slot(t, r, col);
            (exists k | 0 <= k < |us| :: us[k].pos == p) <==>
              !HasWidthAt(t.cells[p].attrs, LocalIndex(t, p, col), width))
  {
    UpdatesSound(t, col, width);
    forall r | 0 <= r < t.tmap.height
      ensures var us := ColumnUpdates(t, col, width);
        var p := Slot(t, r, col);
        (exists k | 0 <= k < |us| :: us[k].pos == p) <==>
          !HasWidthAt(t.cells[p].attrs, LocalIndex(t, p, col), width)
    {
      UpdatedAt(t, col, width, r);
    }
  }

  /** The cell table after applying the updates in order. */
  function ApplyUpdates(t: Table, us: seq<Update>): (t': Table)
    ensures t'.tmap == t.tmap && t'.cells.Keys == t.cells.Keys
    decreases |us|
  {
    if |us| == 0 then t
    else
      var u := us[0];
      var next := if u.pos in t.cells then t.(cells := t.cells[u.pos := Cell(u.attrs, t.cells[u.pos].nodeSize)]) else t;
      ApplyUpdates(next, us[1..])
  }

  lemma {:induction false} ApplyUpdatesCell(t: Table, us: seq<Update>, p: int)
    requires p in t.cells
    requires forall i, j | 0 <= i < j < |us| :: us[i].pos != us[j].pos
    ensures (exists k | 0 <= k < |us| :: us[k].pos == p) ==>
      exists k | 0 <= k < |us| :: us[k].pos == p && ApplyUpdates(t, us).cells[p].attrs == us[k].attrs
    ensures (forall k | 0 <= k < |us| :: us[k].pos != p) ==>
      ApplyUpdates(t, us).cells[p] == t.cells[p]
    ensures ApplyUpdates(t, us).cells[p].nodeSize == t.cells[p].nodeSize
    decreases |us|
  {
    if |us| > 0 {
      var u := us[0];
      var next := if u.pos in t.cells then t.(cells := t.cells[u.pos := Cell(u.attrs, t.cells[u.pos].nodeSize)]) else t;
      ApplyUpdatesCell(next, us[1..], p);
      assert forall k | 1 <= k < |us| :: us[1..][k - 1] == us[k];
      if u.pos == p {
        assert forall k | 0 <= k < |us[1..]| :: us[1..][k].pos != p;
      }
    }
  }

  /** Applying column updates keeps the table well formed. */
  lemma ApplyKeepsWellFormed(t: Table, col: int, width: int)
    requires WellFormed(t) && 0 <= col < t.tmap.width
    ensures var t' := ApplyUpdates(t, ColumnUpdates(t, col, width));
      WellFormed(t') && SameGeometry(t, t')
  {
    var us := ColumnUpdates(t, col, width);
    var t' := ApplyUpdates(t, us);
    UpdatesDistinct(t, col, width);
    UpdatesComplete(t, col, width);
    forall p | p in t.cells
      ensures CellValid(t'.cells[p].attrs)
      ensures t'.cells[p].attrs.colspan == t.cells[p].attrs.colspan
      ensures t'.cells[p].attrs.rowspan == t.cells[p].attrs.rowspan
    {
      ApplyUpdatesCell(t, us, p);
    }
    GeometryPreserved(t, t');
  }

  /** After a commit, every cell covering the column carries the width. */
  lemma CommittedHasWidth(t: Table, col: int, width: int, r: int)
    requires WellFormed(t) && 0 <= col < t.tmap.width && 0 <= r < t.tmap.height
    ensures var t' := ApplyUpdates(t, ColumnUpdates(t, col, width));
      && WellFormed(t')
      && HasWidthAt(t'.cells[Slot(t', r, col)].attrs, LocalIndex(t', Slot(t', r, col), col), width)
  {
    var t' := ApplyUpdates(t, ColumnUpdates(t, col, width));
    var p := Slot(t, r, col);
    ApplyKeepsWellFormed(t, col, width);
    assert Slot(t', r, col) == p && LocalIndex(t', p, col) == LocalIndex(t, p, col) by {
      GeometryPreserved(t, t');
    }
    CommittedCellHasWidth(t, col, width, r);
  }

  /** The cell in row `r` of the column, located in the table before the commit, carries the width after it. */
  lemma CommittedCellHasWidth(t: Table, col: int, width: int, r: int)
    requires WellFormed(t) && 0 <= col < t.tmap.width && 0 <= r < t.tmap.height
    ensures var p := Slot(t, r, col);
      HasWidthAt(ApplyUpdates(t, ColumnUpdates(t, col, width)).cells[p].attrs, LocalIndex(t, p, col), width)
  {
    var us := ColumnUpdates(t, col, width);
    var t' := ApplyUpdates(t, us);
    var p := Slot(t, r, col);
    UpdatesDistinct(t, col, width);
    ApplyUpdatesCell(t, us, p);
    if exists k | 0 <= k < |us| :: us[k].pos == p {
      var k :| 0 <= k < |us| && us[k].pos == p && t'.cells[p].attrs == us[k].attrs;
      UpdatesSound(t, col, width);
      assert IsColumnUpdate(t, col, width, us[k]);
    } else {
      UpdatedAt(t, col, width, r);
    }
  }

  /** Committing the same width again, after the first commit was applied, changes nothing. */
  lemma CommitIdempotent(t: Table, col: int, width: int)
    requires WellFormed(t) && 0 <= col < t.tmap.width
    ensures var t' := ApplyUpdates(t, ColumnUpdates(t, col, width));
      WellFormed(t') && ColumnUpdates(t', col, width) == []
  {
    var t' := ApplyUpdates(t, ColumnUpdates(t, col, width));
    ApplyKeepsWellFormed(t, col, width);
    forall r | 0 <= r < t'.tmap.height
      ensures HasWidthAt(t'.cells[Slot(t', r, col)].attrs, LocalIndex(t', Slot(t', r, col), col), width)
    {
      CommittedHasWidth(t, col, width, r);
    }
    NoUpdatesWhenSet(t', col, width);
  }

  /** A column whose cells all carry the width already needs no updates. */
  lemma NoUpdatesWhenSet(t: Table, col: int, width: int)
    requires WellFormed(t) && 0 <= col < t.tmap.width
    requires forall r | 0 <= r < t.tmap.height ::
      HasWidthAt(t.cells[Slot(t, r, col)].attrs, LocalIndex(t, Slot(t, r, col), col), width)
    ensures ColumnUpdates(t, col, width) == []
  {
    var os := RowUpdates(t, col, width);
    forall r | 0 <= r < t.tmap.height ensures os[r].None? {
      RowUpdateSpec(t, col, width, r);
    }
    SomesEmpty(os);
  }

  /** The outcome of `updateColumnWidth`: no transaction, or one carrying these `setNodeMarkup` steps. */
  datatype Commit = NoDispatch | Dispatch(updates: seq<Update>)

  /** An update with its offset moved from table-relative to document position. */
  function Shifted(u: Update, start: int): (v: Update)
    ensures v.pos - start == u.pos && v.attrs == u.attrs
  {
    Update(start + u.pos, u.attrs)
  }

  /**
   * `updateColumnWidth`: the handle `cell` lies in the table whose content
   * starts at `start`; the column is the last one the handle's cell covers.
   * The transaction is dispatched only when it changed the document.
   */
  function UpdateColumnWidth(t: Table, start: int, cell: int, width: int): (c: Commit)
    requires WellFormed(t) && cell - start in t.tmap.slots
    ensures c.Dispatch? ==> |c.updates| > 0
    ensures c.Dispatch? ==> forall k | 0 <= k < |c.updates| :: c.updates[k].pos - start in t.cells
  {
    var col := LastColumn(t, cell - start);
    var us := ColumnUpdates(t, col, width);
    UpdatesSound(t, col, width);
    if |us| == 0 then NoDispatch else Dispatch(ShiftAll(us, start))
  }

  /** The table after a dispatched commit: its steps applied at their table-relative offsets. */
  function ApplyCommit(t: Table, start: int, c: Commit): (t': Table)
    ensures c.NoDispatch? ==> t' == t
    ensures t'.tmap == t.tmap && t'.cells.Keys == t.cells.Keys
  {
    match c
    case NoDispatch => t
    case Dispatch(vs) => ApplyUpdates(t, seq(|vs|, k requires 0 <= k < |vs| => Update(vs[k].pos - start, vs[k].attrs)))
  }

  /**
   * After the commit `updateColumnWidth` dispatches, every cell covering
   * the handle's last column carries the width at its entry for that column,
   * and the table is still well formed.
   */
  lemma UpdateColumnWidthCommits(t: Table, start: int, cell: int, width: int, r: int)
    requires WellFormed(t) && cell - start in t.tmap.slots && 0 <= r < t.tmap.height
    ensures var col := LastColumn(t, cell - start);
      var t' := ApplyCommit(t, start, UpdateColumnWidth(t, start, cell, width));
      && WellFormed(t')
      && HasWidthAt(t'.cells[Slot(t', r, col)].attrs, LocalIndex(t', Slot(t', r, col), col), width)
  {
    var col := LastColumn(t, cell - start);
    var us := ColumnUpdates(t, col, width);
    var c := UpdateColumnWidth(t, start, cell, width);
    assert ApplyCommit(t, start, c) == ApplyUpdates(t, us) by {
      if c.Dispatch? {
        var vs := c.updates;
        assert seq(|vs|, k requires 0 <= k < |vs| => Update(vs[k].pos - start, vs[k].attrs)) == us;
      }
    }
    CommittedHasWidth(t, col, width, r);
  }

  /** Every update moved by `start`, in the same order. */
  function ShiftAll(us: seq<Update>, start: int): (vs: seq<Update>)
    ensures |vs| == |us|
    ensures forall k | 0 <= k < |us| :: vs[k] == Shifted(us[k], start)
  {
    seq(|us|, k requires 0 <= k < |us| => Shifted(us[k], start))
  }

  /** Shifting keeps distinct positions distinct. */
  lemma ShiftAllDistinct(us: seq<Update>, start: int)
    requires forall i, j | 0 <= i < j < |us| :: us[i].pos != us[j].pos
    ensures var vs := ShiftAll(us, start);
      forall i, j | 0 <= i < j < |vs| :: vs[i].pos != vs[j].pos
  {
  }

  /** Position `p` is among the updates exactly when `start + p` is among the shifted ones. */
  lemma ShiftAllHas(us: seq<Update>, start: int, p: int)
    ensures var vs := ShiftAll(us, start);
      (exists k | 0 <= k < |vs| :: vs[k].pos == start + p) <==> (exists k | 0 <= k < |us| :: us[k].pos == p)
  {
    var vs := ShiftAll(us, start);
    if exists k | 0 <= k < |vs| :: vs[k].pos == start + p {
      var k :| 0 <= k < |vs| && vs[k].pos == start + p;
      assert us[k].pos == p;
    }
  }

  /** A column needs no updates exactly when every cell covering it already has the width. */
  lemma NoUpdatesIff(t: Table, col: int, width: int)
    requires WellFormed(t) && 0 <= col < t.tmap.width
    ensures ColumnUpdates(t, col, width) == [] <==>
      forall r | 0 <= r < t.tmap.height ::
        HasWidthAt(t.cells[Slot(t, r, col)].attrs, LocalIndex(t, Slot(t, r, col), col), width)
  {
    if ColumnUpdates(t, col, width) == [] {
      forall r | 0 <= r < t.tmap.height
        ensures HasWidthAt(t.cells[Slot(t, r, col)].attrs, LocalIndex(t, Slot(t, r, col), col), width)
      {
        UpdatedAt(t, col, width, r);
      }
    } else {
      NoUpdatesWhenSetContra(t, col, width);
    }
  }

  lemma NoUpdatesWhenSetContra(t: Table, col: int, width: int)
    requires WellFormed(t) && 0 <= col < t.tmap.width
    requires ColumnUpdates(t, col, width) != []
    ensures exists r | 0 <= r < t.tmap.height ::
      !HasWidthAt(t.cells[Slot(t, r, col)].attrs, LocalIndex(t, Slot(t, r, col), col), width)
  {
    var us := ColumnUpdates(t, col, width);
    var p := us[0].pos;
    UpdatesSound(t, col, width);
    assert IsColumnUpdate(t, col, width, us[0]);
    FirstSlot(t, p);
    var top := TopRow(t, p);
    SpanInSlot(t, p, top, col);
    CoversOf(t, p);
    assert Slot(t, top, col) == p;
  }

  /** Nothing is dispatched exactly when every cell covering the handle's last column already has the width. */
  lemma UpdateColumnWidthNoDispatch(t: Table, start: int, cell: int, width: int)
    requires WellFormed(t) && cell - start in t.tmap.slots
    ensures var col := LastColumn(t, cell - start);
      UpdateColumnWidth(t, start, cell, width).NoDispatch? <==>
        forall r | 0 <= r < t.tmap.height ::
          HasWidthAt(t.cells[Slot(t, r, col)].attrs, LocalIndex(t, Slot(t, r, col), col), width)
  {
    NoUpdatesIff(t, col := LastColumn(t, cell - start), width := width);
  }

  /** The shifted updates of column `col` are column updates once moved back by `start`. */
  lemma ShiftedUpdatesSound(t: Table, col: int, width: int, start: int)
    requires WellFormed(t) && 0 <= col < t.tmap.width
    ensures var vs := ShiftAll(ColumnUpdates(t, col, width), start);
      forall k | 0 <= k < |vs| :: IsColumnUpdate(t, col, width, Update(vs[k].pos - start, vs[k].attrs))
  {
    var us := ColumnUpdates(t, col, width);
    var vs := ShiftAll(us, start);
    forall k | 0 <= k < |vs| ensures IsColumnUpdate(t, col, width, Update(vs[k].pos - start, vs[k].attrs)) {
      assert Update(vs[k].pos - start, vs[k].attrs) == us[k];
      UpdatesSound(t, col, width);
    }
  }

  /** The shifted updates of column `col` reach exactly the cells lacking the width. */
  lemma ShiftedUpdatesCover(t: Table, col: int, width: int, start: int)
    requires WellFormed(t) && 0 <= col < t.tmap.width
    ensures var vs := ShiftAll(ColumnUpdates(t, col, width), start);
      forall r | 0 <= r < t.tmap.height ::
        var p := Slot(t, r, col);
        (exists k | 0 <= k < |vs| :: vs[k].pos == start + p) <==>
          !HasWidthAt(t.cells[p].attrs, LocalIndex(t, p, col), width)
  {
    var us := ColumnUpdates(t, col, width);
    var vs := ShiftAll(us, start);
    forall r | 0 <= r < t.tmap.height
      ensures var p := Slot(t, r, col);
        (exists k | 0 <= k < |vs| :: vs[k].pos == start + p) <==>
          !HasWidthAt(t.cells[p].attrs, LocalIndex(t, p, col), width)
    {
      UpdatedAt(t, col, width, r);
      ShiftAllHas(us, start, Slot(t, r, col));
    }
  }

  /**
   * The steps `vs` (document positions, content start `start`) are those of
   * column `col`: each sets the entry for the column of a cell lacking the
   * width and nothing else, no two share a cell, and every cell of the column
   * that lacks the width gets one.
   */
  predicate ColumnSteps(t: Table, start: int, col: int, width: int, vs: seq<Update>)
    requires WellFormed(t) && 0 <= col < t.tmap.width
  {
    && (forall k | 0 <= k < |vs| :: IsColumnUpdate(t, col, width, Update(vs[k].pos - start, vs[k].attrs)))
    && (forall i, j | 0 <= i < j < |vs| :: vs[i].pos != vs[j].pos)
    && (forall r | 0 <= r < t.tmap.height ::
          var p := Slot(t, r, col);
          (exists k | 0 <= k < |vs| :: vs[k].pos == start + p) <==>
            !HasWidthAt(t.cells[p].attrs, LocalIndex(t, p, col), width))
  }

  /**
   * A dispatched transaction has one step per cell of the handle's last
   * column that lacks the width, at that cell's document position, each
   * setting the cell's entry for the column and nothing else.
   */
  lemma UpdateColumnWidthSteps(t: Table, start: int, cell: int, width: int)
    requires WellFormed(t) && cell - start in t.tmap.slots
    ensures var c := UpdateColumnWidth(t, start, cell, width);
      c.Dispatch? ==> ColumnSteps(t, start, LastColumn(t, cell - start), width, c.updates)
  {
    var col := LastColumn(t, cell - start);
    ShiftedSteps(t, col, width, start);
  }

  /** The shifted updates of column `col` are its steps. */
  lemma ShiftedSteps(t: Table, col: int, width: int, start: int)
    requires WellFormed(t) && 0 <= col < t.tmap.width
    ensures ColumnSteps(t, start, col, width, ShiftAll(ColumnUpdates(t, col, width), start))
  {
    ShiftedUpdatesSound(t, col, width, start);
    ShiftedUpdatesCover(t, col, width, start);
    UpdatesDistinct(t, col, width);
    ShiftAllDistinct(ColumnUpdates(t, col, width), start);
  }

  /** Committing the width a column already has dispatches nothing. */
  lemma UpdateColumnWidthIdempotent(t: Table, start: int, cell: int, width: int)
    requires WellFormed(t) && cell - start in t.tmap.slots
    ensures var col := LastColumn(t, cell - start);
      var t' := ApplyUpdates(t, ColumnUpdates(t, col, width));
      WellFormed(t') && UpdateColumnWidth(t', start, cell, width) == NoDispatch
  {
    var col := LastColumn(t, cell - start);
    var t' := ApplyUpdates(t, ColumnUpdates(t, col, width));
    CommitIdempotent(t, col, width);
    assert LastColumn(t', cell - start) == col by {
      ApplyKeepsWellFormed(t, col, width);
      GeometryPreserved(t, t');
    }
  }
}

=== FILE: wrappers.dfy ===
/** The Option type used throughout the model for JavaScript's `null` / `undefined`. */
module Wrappers {

  datatype Option<+T> = None | Some(value: T) {

    /** Returns the wrapped value, or `default` when there is none. */
    function GetOr(default: T): T {
      match this
      case Some(v) => v
      case None => default
    }
  }
}
